=== FILE: README.md ===
# The npm registry's package update handler, in Dafny

This project models `registry/updates.js`, the CouchDB update handler the
npm registry runs on every write to a package document, and proves
properties of the model. The handler gets the stored package document (or
nothing, for a new package) and the request, and returns either the
document to store with an `{"ok": ...}` message, or an error marker
(`{_id: ".error.", forbidden: reason}`) that the registry's validation
function refuses to store. It has two entry points.

- `updates.delete` unpublishes a package. It replaces the stored document
  with a tombstone that keeps `_id`, `_rev`, a `name` and `time`, and it
  marks `time.unpublished` with the requester and the time.
- `updates.package` dispatches a write:
  - `newDoc` creates a package.
  - `legacyUpdate` handles a write with a `version` query parameter. A
    string body points a tag at a version (`addTag`). Any other body
    publishes a version (`addNewVersion`).
  - `updateDoc` merges a whole-document PUT. It copies the body's string
    properties, replaces the maintainers behind a revision check, replaces
    the tags, and merges the versions (`mergeVersions`), the requester's
    star (`mergeUsers`) and the inline attachments (`mergeAttachments`).

  Every successful path ends in `ok`. `ok` stamps `time`, moves one readme
  to the root (`readmeTrim`), copies a few fields from the latest version
  (`latestCopy`), and refuses a document without maintainers.

## How the model is laid out

| file | module | models |
|---|---|---|
| json.dfy | `Json` | JSON values, JavaScript truthiness, property reads and writes, `===`, `deepEquals` |
| protocol.dfy | `Protocol` | the request, the library calls, the reply, `error`, `isError`, the document's slots |
| finalize.dfy | `Finalize` | `ok`, `readmeTrim`, `latestCopy` |
| create.dfy | `Create` | `newDoc` |
| legacy.dfy | `Legacy` | `addTag`, `addNewVersion`, `legacyUpdate` |
| merge.dfy | `Merge`, `MergeLoop` | `mergeVersions`: the outcome of one visit and of the whole merge (`Merge`), and the loop over the sent versions (`MergeLoop`) |
| update.dfy | `Update` | `updateDoc`, `mergeUsers`, `mergeAttachments` |
| unpublish.dfy | `Unpublish` | `updates.delete` |
| updates.dfy | `Updates` | the dispatch of `updates.package` |

**Representation.**
- An object is `Obj(keys, vals)`: the order in which `for ... in` visits
  its keys, plus a map from key to value. The handler's answers depend on
  that order:
  - `newDoc` tags the cleaned *last* version key as `latest`.
  - `readmeTrim` takes the *first* truthy readme.
  - `mergeVersions` stops at the *first* sent version that halts it,
    judged after the versions visited before it.
  - A new property goes to the end of the order. Overwriting a property
    keeps its place, and deleting it removes it from the order. Keys that
    look like array indices are not ordered first (see "Left out").
- `WellFormed` says the order lists every property exactly once. This
  holds for every object the parser or the handler builds. Only the
  loops over a body's keys need it.
- An absent property is `None`, JavaScript's `undefined`.
- Each handler returns a `Reply`. `Saved(doc, note)` stands for
  `[doc, {"ok": note}]`. `Refused(reason)` stands for the error marker.
  `isError` also recognises a saved document whose own `_id` is
  `".error."`, as the source does.
- `semver.valid`, `semver.clean` and `valid.name` are functions in a `Lib`
  record passed in.
- Every clock read in one invocation returns the same `now` string.

**How the handler contracts are stated.** Each handler's contract is an
outcome predicate that lists its refusals, in the source's order, with
their reasons. The saved document is described through `Finished`, the
relation between a document and what `ok` makes of it. Examples:
`Create.CreateOutcome`, `Legacy.PublishOutcome`, `Merge.MergeOutcome` and
`Update.UpdateOutcome`.

**Republishing and the merges.**
- On an unpublished package, `updateDoc` gives the *body* the stored
  revision (`newdoc._rev = doc._rev`) and deletes `time.unpublished`.
  The body's own revision is dropped.
- Only the whole-document path does this. The legacy single-version write
  (`?version=`) leaves the `unpublished` mark in place.
- The user and attachment merges test truthiness, not presence.

**The revision checks are weak.** `updateDoc` copies every string
property of the body onto the stored document before it compares
revisions. So a body with any string `_rev` passes the comparison, both
the one guarding the maintainers (`Update.WeakRevisionGate`) and the one
in `mergeVersions` that removes the versions the body left out
(`Update.WeakPruneGate`).

## Model

| member | source | states |
|---|---|---|
| `Unpublish.Delete` | registry/updates.js:3-20 | any method but DELETE is refused with "method not allowed"; a DELETE is saved as "deleted" with the tombstone |
| `Unpublish.Tombstone` | registry/updates.js:14-19 | the tombstone has the stored `_id` and `_rev`, the stored `_id` as `name`, the marked time, no other property, and leaves out an `_id` or `_rev` the stored document lacks |
| `Unpublish.MarkedTime` | registry/updates.js:9-13 | with `time` an object or unset, every stored time entry stays and `unpublished` becomes `{name: user, time: now}`; any other `time` is kept as it is |
| `Unpublish.TombstoneUnpublished` | registry/updates.js:9-19 | the tombstone of a package with an object or unset `time` carries the `unpublished` mark |
| `Unpublish.RepublishTakesRevision` | registry/updates.js:383-387 | a tombstone reads as unpublished, and a whole-document update over it carries the revision the package had when it was unpublished, whatever the body sent |
| `Updates.Package` | registry/updates.js:63-68 | no stored document goes to `newDoc`, a truthy `version` query parameter to `legacyUpdate`, anything else to `updateDoc`, each with that handler's outcome |
| `Legacy.LegacyUpdate` | registry/updates.js:77-91 | a string body tags the version named in the query; any other body publishes under it |
| `Protocol.Error` | registry/updates.js:96-110 | an error reply is refused with its reason, and `isError` recognises it |
| `Finalize.Prefix16` | registry/updates.js:168-170 | the cut is a prefix of the readme that fits in the limit, and the next character would not fit |
| `Finalize.BmpLength` | registry/updates.js:168 | without characters above U+FFFF, the UTF-16 length is the number of characters |
| `Finalize.Cap` | registry/updates.js:168-171 | a readme of at most 65536 UTF-16 code units is unchanged; a longer one is cut to the longest prefix that fits, exactly its first 65536 characters when it has none above U+FFFF; an array keeps exactly its first 65536 elements |
| `Finalize.PickFirst` | registry/updates.js:154-160 | the readme loop keeps a truthy start value and otherwise yields the first truthy record value in iteration order |
| `Finalize.FirstTruthyExists` | registry/updates.js:154-160 | either no record has a truthy value for the key, or a first one in iteration order does |
| `Finalize.PickReadme` | registry/updates.js:142-160 | the readme and file name chosen are the latest version's when it has a readme, else the root's, else the first truthy ones among the records |
| `Finalize.ReadmeTrim` | registry/updates.js:142-176 | the root gets the chosen readme, capped, and its file name; records lose `readme` and `readmeFilename`; nothing else changes |
| `Finalize.FirstTruthyStrip` | registry/updates.js:154-165 | deleting other record properties does not change which readme is first |
| `Finalize.StripKeepsChosen` | registry/updates.js:186-192 | deleting `ctime`/`mtime` from records before `readmeTrim` does not change the readme it picks |
| `Finalize.StripKeepsLatest` | registry/updates.js:186-193 | deleting other record properties does not change what `latestCopy` copies |
| `Finalize.CopyFrom` | registry/updates.js:132-137 | each copied field is the latest record's when truthy and deleted otherwise; every other property stays |
| `Finalize.LatestCopy` | registry/updates.js:113-139 | with `dist-tags` and `versions` set and an object latest record, the eight fields mirror it; otherwise the document is unchanged |
| `Finalize.CopyFieldsApart` | registry/updates.js:119-128 | the copied fields are disjoint from everything else `ok` writes |
| `Finalize.StampTimes` | registry/updates.js:186-191 | every version key without a truthy time entry gets `now`; every other entry stays |
| `Finalize.StampTime` | registry/updates.js:183-191 | `modified` is `now`, a truthy `created` is kept and a falsy one becomes `now`, and every version has a time entry |
| `Finalize.StampRoot` | registry/updates.js:181-185 | root `ctime` and `mtime` are deleted and `time` is stamped when it is an object or unset; nothing else changes |
| `Finalize.Stamp` | registry/updates.js:181-191 | the stamping also deletes `ctime` and `mtime` from every version record and changes nothing else |
| `Finalize.StripVersionsSpec` | registry/updates.js:186-189 | deleting record properties touches only the records, and only those properties |
| `Finalize.StripTwice` | registry/updates.js:186-189 | deleting two lists of properties deletes their union |
| `Finalize.StripRecordsTwice` | registry/updates.js:186-189 | deleting two lists of properties from every record deletes their union from every record |
| `Finalize.WithoutTwice` | registry/updates.js:164-165 | filtering an object's key order twice filters it by the union of the two lists |
| `Finalize.Prepare` | registry/updates.js:181-192 | stamping followed by `readmeTrim`: times stamped, readme moved and capped, no record keeps `ctime`, `mtime`, `readme` or `readmeFilename` |
| `Finalize.Finish` | registry/updates.js:180-194 | the document `ok` writes is the finished document |
| `Finalize.FinishedKeeps` | registry/updates.js:180-194 | `ok` never changes `_id`, `_rev`, `name`, `maintainers`, `dist-tags`, `users` or `_attachments` |
| `Finalize.Ok` | registry/updates.js:180-206 | the reply is refused with "no maintainers?" exactly when the document's maintainers are falsy; saved or refused, the document is finished |
| `Create.CheckRecord` | registry/updates.js:215-222 | a record passes exactly when its key is loosely valid, its `version` is the key, and its `name` is valid; otherwise the first failing check, in that order, gives the reason |
| `Create.DefaultsIdVersions` | registry/updates.js:211-212 | `_id` falls back to `name`, `versions` to `{}`, and nothing outside `_id`, `versions` and `dist-tags` changes |
| `Create.DefaultsDistTags` | registry/updates.js:225-226 | `dist-tags` falls back to `{}` and gets `latest` when the cleaned last key is a non-empty string |
| `Create.DefaultsOtherTags` | registry/updates.js:225-226 | tags other than `latest` are the body's own |
| `Create.DefaultsKeepMaintainers` | registry/updates.js:210-226 | the defaults never touch the maintainers that `ok` checks |
| `Create.NewDoc` | registry/updates.js:210-229 | a non-object body is refused for missing maintainers; the first failing version record, in iteration order, refuses the write; otherwise the defaulted body goes through `ok` as "created new entry" |
| `Create.CreatedDoc` | registry/updates.js:210-229 | a created package is saved with `_id` falling back to `name` and `latest` set to the cleaned last version key |
| `Legacy.AddTag` | registry/updates.js:231-241 | a strictly invalid version and an unknown version are refused, in that order; otherwise only `dist-tags[tag]` changes, to the clean version, and the document goes through `ok` |
| `Legacy.TagSaved` | registry/updates.js:239-240 | a saved tag write points the tag at the clean version and keeps every other tag |
| `Legacy.AddNewVersion` | registry/updates.js:243-298 | a non-object body, an invalid version, an existing raw or clean key, a name differing from `name` or `_id`, and differing clean versions are refused in that order; otherwise the published document goes through `ok` as "added version" |
| `Legacy.RecordIdentity` | registry/updates.js:264-272 | the stored record's `version` is the cleaned one and its `_id` is name@version |
| `Legacy.RecordOwners` | registry/updates.js:273-275 | the stored record's maintainers are the package's and its `_npmUser` defaults to the requester |
| `Legacy.RecordKeeps` | registry/updates.js:264-283 | every other property of the body is stored as sent |
| `Legacy.RecordPublishConfig` | registry/updates.js:277-283 | the stored `publishConfig` loses exactly its underscore keys |
| `Legacy.PublishFrame` | registry/updates.js:290-296 | publishing changes only `dist-tags`, `versions` and `time` |
| `Legacy.PublishTags` | registry/updates.js:285-293 | the tag from the query, else `publishConfig.tag`, else `tag`, else "latest", points at the version unless `pre` is given; `latest` does too when it was falsy; no other tag changes |
| `Legacy.PublishNoTags` | registry/updates.js:290-293 | without a `dist-tags` object no tag is written |
| `Legacy.PublishVersions` | registry/updates.js:294 | the record goes under the clean key, last in iteration order, and no other version changes |
| `Legacy.PublishTime` | registry/updates.js:295-296 | the clean key's time entry is `now` and no other entry changes |
| `Legacy.PublishKeepsTime` | registry/updates.js:295-296 | a `time` that is a truthy primitive or an array stays as it is |
| `Merge.DropEmptyDirectories` | registry/updates.js:319-322 | an empty `{}` `directories` is dropped when the stored record has none; nothing else changes |
| `Merge.Revise` | registry/updates.js:331-345 | on a stored version, a truthy `deprecated` changes only the record's `deprecated` and no root property but `versions`, a deep-equal record changes nothing, and any other record is a conflict carrying the stored and the sent record |
| `Json.DeepEqReflexive` | registry/updates.js:333 | `deepEquals` holds between any value and itself |
| `Merge.DeepEqTruthy` | registry/updates.js:333 | a record deep-equal to a truthy stored record is truthy |
| `Merge.AgedStrip` | registry/updates.js:186-189 | `ok` deleting scratch properties only ages a record |
| `Merge.AgedTrans` | registry/updates.js:331-332 | successive merges age a record, and the later `deprecated` wins |
| `Merge.AddVersion` | registry/updates.js:324-330 | an unclean or empty new key is refused; a clean one is published with `addNewVersion`'s outcome; a stop is an error that names a failing check of `addNewVersion`, missing maintainers, or a saved document whose `_id` is `.error.`; a publication that goes on was publishable (clean key, accepted by every check of `addNewVersion`, maintainers, an ordinary `_id`) and stores exactly the record `addNewVersion` builds, without `ok`'s scratch properties, under the clean key, and only strips the other records |
| `Merge.AddVersionPublishable` | registry/updates.js:243-298 | a publication saved without error had every check of `addNewVersion` pass, maintainers and an ordinary `_id` |
| `Merge.AddVersionStops` | registry/updates.js:324-330 | an error from `addNewVersion` under a clean key is one of its refusals, or `ok`'s missing maintainers, or a saved document whose `_id` is `.error.` |
| `Merge.AddVersionContinues` | registry/updates.js:324-330 | a publication `ok` finished adds the version under its clean key and only strips the other records |
| `Merge.PublishSteady` | registry/updates.js:290-297 | publishing changes no root property but `versions`, `dist-tags`, `time` and what `ok` rewrites |
| `Merge.KeepsOwners` | registry/updates.js:304-354 | a merge of versions keeps the maintainers |
| `Merge.DropAged` | registry/updates.js:319-322 | whether an empty `directories` is dropped does not depend on how the stored record has aged |
| `Merge.ResentAged` | registry/updates.js:331-345 | a record that passes the conflict check against an aged stored record passes it against the stored record |
| `Merge.ResendUnchanged` | registry/updates.js:319-345 | sending a stored record back unchanged, without a truthy `deprecated`, is no conflict and changes nothing |
| `Merge.Visit` | registry/updates.js:315-345 | one step of the merge loop revises a stored version or adds a new one; on a stored version it stops with a conflict exactly when the sent record, with an empty `directories` dropped, has no truthy `deprecated` and is not deep-equal to the stored one, and a revision changes no root property but `versions`; on a new version it goes on only when the version is publishable (clean key, accepted by `addNewVersion`, maintainers, an ordinary `_id`), storing `addNewVersion`'s record, and otherwise stops with the refusal `Rejects` names; every stop is an error that agrees with the maintainers |
| `Merge.PassesNotHalts` | registry/updates.js:319-345 | a stored version that carries a truthy `deprecated` or matches its record as the loop meets it, or a new one that is publishable, never stops the merge |
| `Merge.ProgressStart` | registry/updates.js:314 | before the loop nothing is merged or published and the root is kept |
| `Merge.ProgressRevised` | registry/updates.js:331-345 | revising a stored version keeps the merge invariant |
| `Merge.ProgressAdded` | registry/updates.js:324-330 | adding a new version keeps the merge invariant |
| `Merge.ResentStep` | registry/updates.js:331-345 | each visit keeps the invariant that every stored version sent back passed the conflict check |
| `Merge.LoopStep` | registry/updates.js:315-346 | a turn of the loop that goes on keeps the loop invariants |
| `Merge.LoopRevised` | registry/updates.js:331-345 | a turn that revises a stored version keeps the loop invariants, including that every visited key passed |
| `Merge.LoopAdded` | registry/updates.js:324-330 | a turn that publishes a new version keeps the loop invariants, including that every visited key passed |
| `Merge.Standing` | registry/updates.js:315-330 | a key the loop has not visited is present, and truthy, in the document the loop has reached exactly when it is in the stored one |
| `Merge.WaitingRevised` | registry/updates.js:331-345 | revising a stored version leaves every unvisited record as the loop meets it, and publishes nothing |
| `Merge.WaitingAdded` | registry/updates.js:186-189 | after a publication every unvisited stored record has lost exactly `ok`'s scratch properties |
| `Merge.PassedStep` | registry/updates.js:315 | a key that passed after the keys before it extends the keys that passed, in order |
| `Merge.PassesRevised` | registry/updates.js:331-345 | a stored version the conflict check let through passed against its record as the loop met it |
| `Merge.PassesAdded` | registry/updates.js:324-330 | a new version publishable into the document the loop reached is publishable into the stored one |
| `Merge.AcceptsLift` | registry/updates.js:243-262 | the checks of `addNewVersion` on a clean key judge the stored document and the one the loop reached alike |
| `Merge.FreshRevised` | registry/updates.js:331-332 | revising a stored version keeps the records of the new versions and, while only stored versions were visited, a root changed only in `versions` |
| `Merge.FreshAdded` | registry/updates.js:324-330 | adding a version keeps the records of the other new versions, even after `ok` strips them again, and holds the record `addNewVersion` builds |
| `Merge.HaltsLift` | registry/updates.js:315-345 | a visit that stops halts the merge against the stored document, a stored record judged as the loop met it after the keys before |
| `Merge.RejectsLift` | registry/updates.js:243-297 | a new version refused by `addNewVersion` inside the loop is refused for the same reason against the stored document, whose name, identity, maintainers and version keys the loop kept |
| `Merge.LoopStopped` | registry/updates.js:326-345 | a turn that stops ends the merge with an error that agrees with the maintainers, caused by the first sent key in order to halt, every key before it having passed |
| `Merge.ProgressAll` | registry/updates.js:315-346 | after the loop every sent version is truthy in the document and every stored one has only aged |
| `Merge.ResentAll` | registry/updates.js:315-346 | after the loop every stored version sent back passed the conflict check |
| `Merge.FreshAll` | registry/updates.js:315-346 | after the loop every new version holds the record `addNewVersion` built for it, and when every sent version was a stored one the root changed only in `versions` |
| `Merge.Prune` | registry/updates.js:348-353 | a stored version survives exactly when the body's versions hold it truthy; survivors are unchanged, and no root property but `versions` changes |
| `MergeLoop.MergeVersions` | registry/updates.js:304-354 | see below |
| `MergeLoop.VisitFrom` | registry/updates.js:315-353 | the loop from its `i`-th key on, and the pruning, end with the outcome `mergeVersions` promises |
| `MergeLoop.Turn` | registry/updates.js:315-345 | a turn on the `i`-th key that stops ends the merge with its promised outcome, that key being the first to halt; one that goes on keeps the loop invariants, with the key passed |
| `MergeLoop.NextKey` | registry/updates.js:315 | `for ... in` visits each key once: the next key is not among those visited |
| `Merge.MergeNothing` | registry/updates.js:305-306 | without truthy `versions` in the body the merge changes nothing |
| `Merge.MergeDone` | registry/updates.js:348-353 | after the loop and the pruning, the merge has its promised outcome |
| `Merge.MergePruned` | registry/updates.js:348-353 | with a matching revision the result holds exactly the sent versions, and the survivors have only aged |
| `Merge.VersionsMergedStrip` | registry/updates.js:186-189 | `ok` deleting scratch properties keeps a merge's outcome |
| `Finalize.StripIdem` | registry/updates.js:186-189 | deleting the same properties twice is deleting them once |
| `Merge.MergeGoesOn` | registry/updates.js:315-345 | with versions in the body, the merge goes on exactly when every sent key passes in turn |
| `Merge.MergeAccepted` | registry/updates.js:324-330 | a merge that goes on published every new version: `addNewVersion` accepted it, and the document has maintainers and an ordinary `_id` |
| `Merge.ResendPasses` | registry/updates.js:319-333 | a stored record sent back as it is, before any new version was published, passes the conflict check |
| `Merge.ResendAll` | registry/updates.js:304-354 | sending the stored versions back as they are, when every record is truthy, never stops the merge, and no root property but `versions` changes |
| `Update.Sent` | registry/updates.js:383-387 | on an unpublished package the body carries the stored revision; no other body property changes |
| `Update.Revived` | registry/updates.js:383-387 | on an unpublished package `time.unpublished` is deleted and every other entry and property stays |
| `Update.CopyStrings` | registry/updates.js:389-393 | exactly the string-valued properties of the body are copied onto the stored document |
| `Update.PreparedCopies` | registry/updates.js:389-393 | every property other than `maintainers` and `dist-tags` is the body's string when it sent one, else the stored one |
| `Update.PreparedOwners` | registry/updates.js:395-399 | the maintainers are the body's when the gate opens or when it sent a string, else the stored ones |
| `Update.PreparedTags` | registry/updates.js:401-402 | the tags are the body's when truthy or a string, else the stored ones |
| `Update.WeakRevisionGate` | registry/updates.js:389-399 | when the body's revision is a string, the maintainers gate opens exactly when the body sends truthy maintainers |
| `Update.RevisionGate` | registry/updates.js:395-399 | without a string revision in the body, the gate compares it with the stored revision |
| `Update.WeakPruneGate` | registry/updates.js:312 | when the body's revision is a string, `mergeVersions` sees matching revisions and removes the versions the body left out |
| `Update.PruneGate` | registry/updates.js:312 | without a string revision in the body, `mergeVersions` compares it with the stored revision |
| `Update.UsersAfter` | registry/updates.js:356-367 | with truthy `users` in the body, the requester's entry becomes the body's when truthy and is deleted otherwise; no other user's entry changes |
| `Update.MergeUsers` | registry/updates.js:356-367 | only `users` changes, as `UsersAfter` says |
| `Update.CopyInline` | registry/updates.js:374-379 | exactly the attachments carrying truthy `data` are copied |
| `Update.AttachmentsAfter` | registry/updates.js:369-380 | every sent attachment with inline data replaces the stored one; every other stored attachment stays |
| `Update.MergeAttachments` | registry/updates.js:369-380 | only `_attachments` changes, as `AttachmentsAfter` says |
| `Update.UpdateDoc` | registry/updates.js:382-417 | the reply comes from a merge of the body's versions into the prepared document that `mergeVersions` allows: its error when the merge stops, and otherwise `ok`'s reply on the merged document with the star and the attachments merged in; a saved reply needs maintainers on the prepared document, and a missing-maintainers refusal needs them absent; a saved non-error reply is "updated package" with every property nobody writes kept |
| `Update.UpdateStopped` | registry/updates.js:404-406 | a merge that stops answers the update with its own error |
| `Update.MergedOwners` | registry/updates.js:404-413 | merging versions, the star and the attachments keeps the maintainers |
| `Update.UpdateDone` | registry/updates.js:404-416 | `ok` on the merged document gives the promised reply |
| `Update.IdenticalRepublish` | registry/updates.js:382-417 | a PUT that sends the stored versions back unchanged, when every record is truthy, is saved as "updated package" exactly when the prepared document has maintainers |
| `Update.RepublishReply` | registry/updates.js:404-416 | the reply to a merge of the stored versions sent back unchanged is saved exactly when the prepared document has maintainers |
| `Update.UpdateAccepted` | registry/updates.js:382-417 | an update saved without error had every sent key pass in turn, and every new version was accepted by `addNewVersion` for a prepared document with maintainers and an ordinary `_id` |
| `Update.UpdateKeepsTags` | registry/updates.js:382-417 | an update whose body publishes no new version keeps the prepared tags and the creation time |
| `Update.KeptTags` | registry/updates.js:180-194 | `ok` on a merge that changed only `versions` keeps the tags and the creation time |
| `Update.UpdateFinished` | registry/updates.js:404-416 | the saved document keeps every property nobody writes (identity, revision, name, maintainers, copied strings); users and attachments are merged in; without versions in the body the tags are kept and the versions lose only `ok`'s scratch properties; with them they are merged |
| `Update.UpdatedRoot` | registry/updates.js:389-416 | what neither a merge nor `ok` writes is the prepared document's, and the star and attachments are merged in |
| `Update.UpdatedVersions` | registry/updates.js:403-416 | a body without versions keeps the stored tags and versions apart from `ok`'s scratch deletions; with versions, the saved versions are merged |

`MergeLoop.MergeVersions` promises the following (`Merge.MergeOutcome`):
- With no truthy `versions` in the body, nothing happens.
- A stop is an error. A saved stop needs maintainers, and a
  missing-maintainers refusal needs them absent.
- A stop is caused by the first sent version, in iteration order, that
  halts the merge; every version before it passed. Each is judged against
  the stored document as the loop meets it:
  - a stored version with no truthy `deprecated` that, with an empty
    `directories` dropped, is not deep-equal to its record as the loop
    meets it; the reply is that conflict. After a new version earlier in
    the order, `ok` has deleted `ctime`, `mtime`, `readme` and
    `readmeFilename` from every stored record, so the record met is the
    stored one without those properties; otherwise it is the stored one;
  - or a new version whose key is not clean, which `addNewVersion`
    refuses, or whose publication `ok` refuses for missing maintainers.
- A merge that goes on keeps every root property no merge writes.
  `versions`, `dist-tags`, `time`, `readme`, `readmeFilename`, `ctime`,
  `mtime` and the fields `latestCopy` copies may change, and only when
  a sent version is new; when every sent version is a stored one, no
  root property but `versions` changes.
- Every sent version passed in turn: a stored one carries a truthy
  `deprecated` or matches its record as the loop met it, and a new one is
  publishable (clean key, accepted by `addNewVersion`, maintainers, an
  ordinary `_id`).
- Every sent version is truthy in the result.
- Every new key is clean, and its record is the one `addNewVersion`
  builds for it, without `ok`'s scratch properties. Every key comes from
  the stored or the sent versions.
- Every stored version the body sends back passed the conflict check: it
  carries a truthy `deprecated`, or, with an empty `directories` dropped,
  it is deep-equal to the stored record (up to the scratch properties
  `ok` deletes).
- Surviving stored records have only aged: they took a truthy
  `deprecated` they were sent, and may have lost scratch properties.
- Without a matching revision, every stored version survives. With one,
  the result holds exactly the sent keys.

The two directions meet exactly (`Merge.MergeGoesOn`): with versions in
the body, the merge goes on exactly when every sent version passes in
turn. So a stored record with `ctime`, `mtime`, `readme` or
`readmeFilename`, sent back unchanged after a new version in the same
merge, conflicts, and sent back before any new version, passes
(`Merge.ResendPasses`). `Update.UpdateAccepted` lifts this to
`updateDoc`: a saved, non-error reply means every new version was
accepted by `addNewVersion`.

## Left out

- Debug output is not modelled. The handler appends it to error and
  success messages, and it never reaches a decision.
- The `monkeypatch` patching and the parsing of the request body
  (`JSON.parse`) are not modelled. The body arrives parsed.
- The text of error and success messages is abstracted to a `Reason` or a
  `Note`. Messages built with `JSON.stringify` are not rendered.
- `semver` and `valid` are parameters (`Lib`). The model assumes nothing
  about them.
- The clock is the parameter `now`. The requester's name is a string, so
  an anonymous request with a null name is not modelled.
- The error after the dispatch (line 71) cannot be reached and has no
  model.
- Crashes are not modelled. Where the source would throw a TypeError,
  the model is total:
  - A write through a missing or null slot (`doc["dist-tags"][tag]` when
    `dist-tags` is unset) is a no-op, as a write through a primitive
    already is.
  - Reading a property of a null or primitive version record or
    attachment reads `undefined`.
  - A missing or non-object slot iterates as `{}`.
- Named properties written onto arrays are not modelled, because they
  are not part of JSON text. An array body to `addNewVersion` is
  therefore stored as sent.
- JavaScript's string and array indexing by property name is not
  modelled. The same goes for a primitive `newdoc.users` read as an
  object; such a read is `undefined`.
- `semver.clean` of a value that is not a string is taken to be null.
- `JSON.stringify(nv.directories) === '{}'` is modelled as "an object
  without properties".
- A body that is not an object sent to `updateDoc` is taken as `{}`. The
  source iterates a string's characters, and it throws on null.
- `Update.UpdateDoc` and `Updates.Package` require the body's `versions`
  to be well formed (each key listed once in iteration order). A parsed
  body always satisfies this.
- `MergeLoop.MergeVersions` has the same requirement.
- `Merge.AddVersion`: a stop for missing maintainers is stated by its
  reason, not by the finished document it carries. That document is
  `addNewVersion`'s, and `Legacy.AddNewVersion` states it.
- `MergeLoop.MergeVersions`: when a new version is published, the tags,
  `time`, readme and copied fields it writes are bounded by the set of
  properties a merge may write, not pinned to the values. Those values
  are `addNewVersion`'s and `ok`'s, and `Legacy.PublishTags`,
  `Legacy.PublishTime` and `Finalize.Finish` state them for a single
  publication; the chain of publications inside one merge is not
  composed.
- `Finalize.Cap`: when the 65536th UTF-16 code unit is the first half of
  a character above U+FFFF, JavaScript's `slice` keeps that lone half. A
  Dafny string cannot hold half a character, so the model's cut ends one
  code unit earlier. A readme is otherwise measured in UTF-16 code units,
  as JavaScript does.
- Numbers are integers (`JNum(int)`). A fraction such as `0.5` is not
  modelled, and `String(n)` is plain decimal, so numbers from 1e21 upward,
  which JavaScript writes in exponent form, are not rendered as JavaScript
  renders them. Only a version or tag name built from a number would see
  this.
- JavaScript visits integer-like keys ("2", "10") of an object first, in
  ascending order, and only then the other keys in insertion order. The
  model visits every key in insertion order. So a body whose versions hold
  such a key next to a changed record, `{"1.0.0": <changed>, "2": {}}`,
  is refused in the model for the conflict on "1.0.0", where the source
  first refuses the unclean version "2". The same order decides which
  readme is first and which version key is last in `newDoc`.
- The host is not modelled: the validation function that refuses the
  error marker, and CouchDB's own revision check on the write.

=== FILE: create.dfy ===
/**
 `newDoc(body)`: the first write of a package, when nothing is stored yet.
 Every version record in the body is checked in iteration order; the first
 failing check refuses the write. Otherwise `_id` defaults to `name`,
 `versions` and `dist-tags` default to `{}`, `dist-tags.latest` becomes the
 cleaned form of the last version key, and the document is finalised.
 */
module Create {
  import opened Json
  import opened Protocol
  import opened Finalize

  /** The checks `newDoc` runs on the record under key `v`, in order: the key
      is a loosely valid version, the record's `version` is the key itself,
      and the record's `name` is a valid package name. */
  function CheckRecord(lib: Lib, vs: Obj, v: string): (problem: Option<Reason>)
    ensures problem.None? <==>
              lib.semverValid(v, true)
              && StrictEq(Prop(Get(vs, v), "version"), Some(JStr(v)))
              && lib.validName(Prop(Get(vs, v), "name"))
    ensures !lib.semverValid(v, true) ==> problem == Some(InvalidVersionKey(v))
    ensures lib.semverValid(v, true) && !StrictEq(Prop(Get(vs, v), "version"), Some(JStr(v))) ==>
              problem == Some(VersionMismatch(v, Prop(Get(vs, v), "version")))
    ensures lib.semverValid(v, true) && StrictEq(Prop(Get(vs, v), "version"), Some(JStr(v)))
            && !lib.validName(Prop(Get(vs, v), "name")) ==>
              problem == Some(InvalidName(Prop(Get(vs, v), "name")))
  {
    var p := Get(vs, v);
    if !lib.semverValid(v, true) then Some(InvalidVersionKey(v))
    else if !StrictEq(Prop(p, "version"), Some(JStr(v))) then Some(VersionMismatch(v, Prop(p, "version")))
    else if !lib.validName(Prop(p, "name")) then Some(InvalidName(Prop(p, "name")))
    else None
  }

  /** `keys[i]` is the first key, in iteration order, whose record fails a check. */
  ghost predicate FirstFailure(lib: Lib, vs: Obj, keys: seq<string>, i: int) {
    && 0 <= i < |keys|
    && CheckRecord(lib, vs, keys[i]).Some?
    && forall j :: 0 <= j < i ==> CheckRecord(lib, vs, keys[j]).None?
  }

  /** Every record passes the checks. */
  ghost predicate AllPass(lib: Lib, vs: Obj, keys: seq<string>) {
    forall j :: 0 <= j < |keys| ==> CheckRecord(lib, vs, keys[j]).None?
  }

  /** The value `latest` holds after the loop: the cleaned last key, or
      `undefined` when there are no versions. */
  function LastClean(lib: Lib, keys: seq<string>): Option<string> {
    if |keys| == 0 then None else lib.semverClean(keys[|keys| - 1])
  }

  /** The defaults `newDoc` fills in before finalising. */
  function Defaults(o: Obj, latest: Option<string>): Obj {
    var d1 := if IsTruthy(Get(o, "_id")) then o else SetOpt(o, "_id", Get(o, "name"));
    var d2 := Default(d1, "versions");
    var d3 := Default(d2, "dist-tags");
    if latest.Some? && latest.value != "" then SetIn(d3, "dist-tags", "latest", JStr(latest.value)) else d3
  }

  /** `_id` falls back to `name`, `versions` to `{}`, and nothing outside
      `_id`, `versions` and `dist-tags` changes. */
  lemma DefaultsIdVersions(o: Obj, latest: Option<string>)
    ensures Get(Defaults(o, latest), "_id") == if IsTruthy(Get(o, "_id")) then Get(o, "_id") else Get(o, "name")
    ensures Get(Defaults(o, latest), "versions") ==
              if IsTruthy(Get(o, "versions")) then Get(o, "versions") else Some(JObj(Empty))
    ensures SameExcept(o, Defaults(o, latest), {"_id", "versions", "dist-tags"})
  {
  }

  /** `dist-tags` falls back to `{}` and gains `latest` when the cleaned last
      key is a non-empty string; no other tag changes. */
  lemma DefaultsDistTags(o: Obj, latest: Option<string>)
    ensures ObjectSlot(o, "dist-tags") ==> HasDistTags(Defaults(o, latest))
    ensures ObjectSlot(o, "dist-tags") && latest.Some? && latest.value != "" ==>
              Get(DistTags(Defaults(o, latest)), "latest") == Some(JStr(latest.value))
    ensures !ObjectSlot(o, "dist-tags") ==> Get(Defaults(o, latest), "dist-tags") == Get(o, "dist-tags")
  {
  }

  /** Tags other than `latest` are the body's own. */
  lemma DefaultsOtherTags(o: Obj, latest: Option<string>, t: string)
    requires t != "latest"
    ensures Get(DistTags(Defaults(o, latest)), t) == Get(DistTags(o), t)
  {
  }

  /** What `newDoc(body)` promises. A body that is not an object has no
      maintainers; an object body is refused for its first failing version
      record, and otherwise gets its defaults and goes through `ok`. */
  ghost predicate CreateOutcome(lib: Lib, body: Json, now: string, r: Reply) {
    && (!body.JObj? ==> r == Refused(NoMaintainers(body)))
    && (body.JObj? ==> forall i :: FirstFailure(lib, Versions(body.obj), Versions(body.obj).keys, i) ==>
          r == Refused(CheckRecord(lib, Versions(body.obj), Versions(body.obj).keys[i]).value))
    && (body.JObj? && AllPass(lib, Versions(body.obj), Versions(body.obj).keys) ==>
          OkReply(Defaults(body.obj, LastClean(lib, Versions(body.obj).keys)), Created, now, r))
    && (r.Saved? ==> body.JObj? && AllPass(lib, Versions(body.obj), Versions(body.obj).keys))
  }

  /** `newDoc(body)`. */
  method NewDoc(lib: Lib, body: Json, now: string) returns (r: Reply)
    ensures CreateOutcome(lib, body, now, r)
  {
    if !body.JObj? {
      return Refused(NoMaintainers(body));
    }
    var o := body.obj;
    var vs := Versions(o);
    var keys := vs.keys;
    var latest: Option<string> := None;
    var i := 0;
    while i < |keys|
      invariant 0 <= i <= |keys|
      invariant forall j :: 0 <= j < i ==> CheckRecord(lib, vs, keys[j]).None?
      invariant latest == LastClean(lib, keys[..i])
    {
      var problem := CheckRecord(lib, vs, keys[i]);
      if problem.Some? {
        assert FirstFailure(lib, vs, keys, i);
        return Refused(problem.value);
      }
      latest := lib.semverClean(keys[i]);
      i := i + 1;
    }
    assert keys[..i] == keys;
    var d := Defaults(o, latest);
    r := Ok(d, Created, now);
  }

  /** The maintainers `ok` checks are the body's own. */
  lemma DefaultsKeepMaintainers(o: Obj, latest: Option<string>)
    ensures Get(Defaults(o, latest), "maintainers") == Get(o, "maintainers")
  {
    DefaultsIdVersions(o, latest);
    assert "maintainers" !in {"_id", "versions", "dist-tags"};
  }

  /** A created package is saved with `_id` falling back to `name`, and,
      when its tags are an object or unset, `latest` on the cleaned last
      version key when that is a non-empty string. */
  lemma CreatedDoc(lib: Lib, body: Json, now: string, r: Reply)
    requires CreateOutcome(lib, body, now, r) && r.Saved?
    ensures body.JObj? && r.note == Created
    ensures Get(r.doc, "_id") ==
              if IsTruthy(Get(body.obj, "_id")) then Get(body.obj, "_id") else Get(body.obj, "name")
    ensures ObjectSlot(body.obj, "dist-tags") && LastClean(lib, Versions(body.obj).keys).Some?
            && LastClean(lib, Versions(body.obj).keys).value != "" ==>
              Get(DistTags(r.doc), "latest") == Some(JStr(LastClean(lib, Versions(body.obj).keys).value))
  {
    var o := body.obj;
    var latest := LastClean(lib, Versions(o).keys);
    var d := Defaults(o, latest);
    FinishedKeeps(d, r.doc, now, "_id");
    FinishedKeeps(d, r.doc, now, "dist-tags");
    DefaultsIdVersions(o, latest);
    DefaultsDistTags(o, latest);
  }
}

=== FILE: finalize.dfy ===
/**
 The finaliser `ok(doc, message)` and its two helpers `readmeTrim` and
 `latestCopy`: every successful write goes through it. It drops internal
 timestamps, keeps the `time` map current, moves readmes from the version
 records to the document root (capped at 65536 UTF-16 code units), copies descriptive fields
 of the `latest` version to the root, and refuses a document without
 maintainers.
 */
module Finalize {
  import opened Json
  import opened Protocol

  const ReadmeMaxLen: nat := 64 * 1024

  /** The fields `latestCopy` mirrors from the latest version onto the root. */
  const CopyFields: seq<string> :=
    ["description", "homepage", "keywords", "repository", "contributors", "author", "bugs", "license"]

  /** The properties `ok` deletes from every version record while stamping
      times, those `readmeTrim` deletes, and both together. */
  const StampScratch: seq<string> := ["ctime", "mtime"]
  const ReadmeScratch: seq<string> := ["readme", "readmeFilename"]
  const RecordScratch: seq<string> := StampScratch + ReadmeScratch

  /** The root properties the stamping and `readmeTrim` may change. */
  const StampRewrites: set<string> := {"ctime", "mtime", "time", "versions"}
  const ReadmeRewrites: set<string> := {"versions", "readme", "readmeFilename"}
  const RootRewrites: set<string> := StampRewrites + ReadmeRewrites

  /** Every property of `a` other than those in `except` reads the same in `b`. */
  ghost predicate SameExcept(a: Obj, b: Obj, except: set<string>) {
    forall k {:trigger Get(b, k)} :: k !in except ==> Get(a, k) == Get(b, k)
  }

  /** `delete j[k]` for each `k` in `ks`; a no-op on anything but an object. */
  function Strip(j: Json, ks: seq<string>): Json {
    if j.JObj? then JObj(RemoveWhere(j.obj, k => k in ks)) else j
  }

  /** Deleting the properties `ks` leaves every other property alone and
      removes those. */
  lemma FieldOfStrip(j: Json, ks: seq<string>, key: string)
    ensures Field(Strip(j, ks), key) == if key in ks then None else Field(j, key)
  {
  }

  /** Applies `Strip(_, ks)` to every record of a versions object, keeping keys and order. */
  function StripRecords(vs: Obj, ks: seq<string>): Obj {
    Obj(vs.keys, map v | v in vs.vals :: Strip(vs.vals[v], ks))
  }

  /** A property of a record of `StripRecords(vs, ks)` is the one of `vs`,
      unless it is one of `ks`, which no record has any more. */
  lemma PropOfStripRecords(vs: Obj, ks: seq<string>, v: string, key: string)
    ensures Prop(Get(StripRecords(vs, ks), v), key) ==
              if key in ks then None else Prop(Get(vs, v), key)
  {
    if v in vs.vals {
      FieldOfStrip(vs.vals[v], ks, key);
    }
  }

  /** Filtering the key order twice filters it by the union. */
  lemma {:induction false} WithoutTwice(keys: seq<string>, ks1: seq<string>, ks2: seq<string>)
    ensures Without(Without(keys, k => k in ks1), k => k in ks2) == Without(keys, k => k in ks1 + ks2)
  {
    if |keys| > 0 {
      WithoutTwice(keys[1..], ks1, ks2);
    }
  }

  /** Deleting two lists of properties deletes their union. */
  lemma StripTwice(j: Json, ks1: seq<string>, ks2: seq<string>)
    ensures Strip(Strip(j, ks1), ks2) == Strip(j, ks1 + ks2)
  {
    if j.JObj? {
      WithoutTwice(j.obj.keys, ks1, ks2);
      var a := RemoveWhere(RemoveWhere(j.obj, k => k in ks1), k => k in ks2);
      var b := RemoveWhere(j.obj, k => k in ks1 + ks2);
      assert a.vals == b.vals;
    }
  }

  /** Deleting the same properties twice deletes them once. */
  lemma StripIdem(j: Json, ks: seq<string>)
    ensures Strip(Strip(j, ks), ks) == Strip(j, ks)
  {
    if j.JObj? {
      WithoutIdem(j.obj.keys, k => k in ks);
      var a := RemoveWhere(RemoveWhere(j.obj, k => k in ks), k => k in ks);
      var b := RemoveWhere(j.obj, k => k in ks);
      assert a.vals == b.vals;
    }
  }

  /** Stripping the records twice strips the union. */
  lemma StripRecordsTwice(vs: Obj, ks1: seq<string>, ks2: seq<string>)
    ensures StripRecords(StripRecords(vs, ks1), ks2) == StripRecords(vs, ks1 + ks2)
  {
    var a := StripRecords(StripRecords(vs, ks1), ks2);
    var b := StripRecords(vs, ks1 + ks2);
    forall v | v in vs.vals ensures a.vals[v] == b.vals[v] {
      StripTwice(vs.vals[v], ks1, ks2);
    }
    assert a.vals == b.vals;
  }

  /** Rewrites `doc.versions` with `Strip(_, ks)` applied to every record;
      `for (v in doc.versions)` visits nothing when it is not an object. */
  function StripVersions(doc: Obj, ks: seq<string>): Obj {
    if HasVersions(doc) then Set(doc, "versions", JObj(StripRecords(Versions(doc), ks))) else doc
  }

  /** `s` is `doc` with the properties `ks` deleted from every version
      record, as far as `versions` and `dist-tags` go. */
  ghost predicate RecordsStripped(doc: Obj, s: Obj, ks: seq<string>) {
    && Get(s, "dist-tags") == Get(doc, "dist-tags")
    && HasVersions(s) == HasVersions(doc)
    && (!HasVersions(doc) ==> Get(s, "versions") == Get(doc, "versions"))
    && Versions(s) == StripRecords(Versions(doc), ks)
  }

  /** What `StripVersions` changes: only the records, and only by `Strip`. */
  lemma StripVersionsSpec(doc: Obj, ks: seq<string>)
    ensures SameExcept(doc, StripVersions(doc, ks), {"versions"})
    ensures RecordsStripped(doc, StripVersions(doc, ks), ks)
  {
  }

  /** The loop `time[v] = time[v] || now` over the version keys. */
  function StampTimes(time: Obj, keys: seq<string>, now: string): (r: Obj)
    ensures forall k {:trigger Get(r, k)} ::
              Get(r, k) == if k in keys then Some(OrElse(Get(time, k), JStr(now))) else Get(time, k)
    decreases |keys|
  {
    if |keys| == 0 then time
    else
      var t := if IsTruthy(Get(time, keys[0])) then time else Set(time, keys[0], JStr(now));
      StampTimes(t, keys[1..], now)
  }

  /** The `time` bookkeeping of `ok`: `time.modified = now`, `time.created`
      defaults to it, and every version key gets an entry. */
  function StampTime(time: Obj, keys: seq<string>, now: string): (r: Obj)
    ensures Get(r, "modified") == Some(JStr(now))
    ensures Get(r, "created") == Some(OrElse(Get(time, "created"), JStr(now)))
    ensures forall k {:trigger Get(r, k)} :: k != "modified" && k != "created" ==>
              Get(r, k) == if k in keys && !IsTruthy(Get(time, k)) then Some(JStr(now)) else Get(time, k)
  {
    var t1 := Set(time, "modified", JStr(now));
    var t2 := if IsTruthy(Get(t1, "created")) then t1 else Set(t1, "created", JStr(now));
    var r := StampTimes(t2, keys, now);
    forall k | k != "modified" && k != "created"
      ensures Get(r, k) == if k in keys && !IsTruthy(Get(time, k)) then Some(JStr(now)) else Get(time, k)
    {
      assert Get(t2, k) == Get(time, k);
    }
    r
  }

  /** `delete doc.mtime; delete doc.ctime` and the `time` bookkeeping, which
      a `time` that is a truthy primitive or an array swallows. */
  method StampRoot(doc: Obj, now: string) returns (r: Obj)
    ensures Get(r, "ctime") == None && Get(r, "mtime") == None
    ensures ObjectSlot(doc, "time") ==> Get(r, "time") == Some(JObj(StampTime(Time(doc), Versions(doc).keys, now)))
    ensures !ObjectSlot(doc, "time") ==> Get(r, "time") == Get(doc, "time")
    ensures forall k {:trigger Get(r, k)} :: k != "ctime" && k != "mtime" && k != "time" ==> Get(r, k) == Get(doc, k)
  {
    var t := StampTime(Time(doc), Versions(doc).keys, now);
    var d := Remove(Remove(doc, "mtime"), "ctime");
    r := if ObjectSlot(doc, "time") then Set(d, "time", JObj(t)) else d;
  }

  /** The first part of `ok`: deletes the root `ctime` and `mtime`, keeps
      `time` current and deletes `ctime` and `mtime` from every version record. */
  method Stamp(doc: Obj, now: string) returns (r: Obj)
    ensures Get(r, "ctime") == None && Get(r, "mtime") == None
    ensures ObjectSlot(doc, "time") ==> Get(r, "time") == Some(JObj(StampTime(Time(doc), Versions(doc).keys, now)))
    ensures !ObjectSlot(doc, "time") ==> Get(r, "time") == Get(doc, "time")
    ensures SameExcept(doc, r, StampRewrites)
    ensures RecordsStripped(doc, r, StampScratch)
  {
    var d := StampRoot(doc, now);
    StripVersionsSpec(d, StampScratch);
    r := StripVersions(d, StampScratch);
  }

  /** The UTF-16 code units of one character: two above U+FFFF, one otherwise. */
  function Units(c: char): nat {
    if c as int > 0xFFFF then 2 else 1
  }

  /** JavaScript's `s.length`: the UTF-16 code units of `s`. */
  function Utf16Len(s: string): nat {
    if |s| == 0 then 0 else Utf16Len(s[..|s| - 1]) + Units(s[|s| - 1])
  }

  /** `s` has no character above U+FFFF. */
  predicate Bmp(s: string) {
    forall i :: 0 <= i < |s| ==> s[i] as int <= 0xFFFF
  }

  /** Without characters above U+FFFF, code units and characters agree. */
  lemma {:induction false} BmpLength(s: string)
    requires Bmp(s)
    ensures Utf16Len(s) == |s|
  {
    if |s| > 0 {
      BmpLength(s[..|s| - 1]);
    }
  }

  /** `s.slice(0, max)` in whole characters: the longest prefix of `s`
      whose code units fit in `max`. */
  function Prefix16(s: string, max: nat): (r: string)
    ensures r <= s && Utf16Len(r) <= max
    ensures Utf16Len(s) <= max ==> r == s
    ensures |r| < |s| ==> Utf16Len(r) + Units(s[|r|]) > max
    decreases |s|
  {
    if Utf16Len(s) <= max then s else Prefix16(s[..|s| - 1], max)
  }

  /** `readme.slice(0, README_MAXLEN)` when `readme.length > README_MAXLEN`;
      only strings and arrays have a length, a string's counted in UTF-16
      code units and an array's in elements. */
  function Cap(readme: Json): (r: Json)
    ensures readme.JStr? && Utf16Len(readme.s) <= ReadmeMaxLen ==> r == readme
    ensures readme.JStr? && Utf16Len(readme.s) > ReadmeMaxLen ==>
              && r.JStr? && r.s < readme.s && Utf16Len(r.s) <= ReadmeMaxLen
              && Utf16Len(r.s) + Units(readme.s[|r.s|]) > ReadmeMaxLen
    ensures readme.JStr? && Bmp(readme.s) && |readme.s| > ReadmeMaxLen ==> r == JStr(readme.s[..ReadmeMaxLen])
    ensures readme.JArr? && |readme.items| <= ReadmeMaxLen ==> r == readme
    ensures readme.JArr? && |readme.items| > ReadmeMaxLen ==> r == JArr(readme.items[..ReadmeMaxLen])
    ensures !readme.JStr? && !readme.JArr? ==> r == readme
  {
    match readme
    case JStr(s) =>
      var t := Prefix16(s, ReadmeMaxLen);
      assert Bmp(s) && |s| > ReadmeMaxLen ==> t == s[..ReadmeMaxLen] by {
        if Bmp(s) && |s| > ReadmeMaxLen {
          BmpLength(s);
          assert Bmp(t);
          BmpLength(t);
        }
      }
      JStr(t)
    case JArr(xs) => if |xs| > ReadmeMaxLen then JArr(xs[..ReadmeMaxLen]) else readme
    case _ => readme
  }

  /** Property `key` of the record that `keys[i]` names. */
  function FieldAt(vs: Obj, keys: seq<string>, i: nat, key: string): Option<Json>
    requires i < |keys|
  {
    Prop(Get(vs, keys[i]), key)
  }

  /** `keys[i]` names the first record, in the order `keys`, whose property
      `key` is truthy. */
  ghost predicate FirstTruthyAt(vs: Obj, keys: seq<string>, key: string, i: int) {
    && 0 <= i < |keys|
    && IsTruthy(FieldAt(vs, keys, i, key))
    && forall j :: 0 <= j < i ==> !IsTruthy(FieldAt(vs, keys, j, key))
  }

  /** No record named in `keys` has a truthy property `key`. */
  ghost predicate NoneTruthy(vs: Obj, keys: seq<string>, key: string) {
    forall j :: 0 <= j < |keys| ==> !IsTruthy(FieldAt(vs, keys, j, key))
  }

  /** Dropping the first key shifts the positions by one. */
  lemma FieldAtTail(vs: Obj, keys: seq<string>, key: string)
    requires |keys| > 0
    ensures forall j {:trigger FieldAt(vs, keys[1..], j, key)} :: 0 <= j < |keys| - 1 ==>
              FieldAt(vs, keys[1..], j, key) == FieldAt(vs, keys, j + 1, key)
  {
  }

  /** When some record has a truthy `key`, a first one does. */
  lemma {:induction false} FirstTruthyExists(vs: Obj, keys: seq<string>, key: string)
    ensures NoneTruthy(vs, keys, key) || exists i :: FirstTruthyAt(vs, keys, key, i)
    decreases |keys|
  {
    if |keys| > 0 && !IsTruthy(FieldAt(vs, keys, 0, key)) {
      FirstTruthyExists(vs, keys[1..], key);
      FieldAtTail(vs, keys, key);
      if !NoneTruthy(vs, keys[1..], key) {
        var i :| FirstTruthyAt(vs, keys[1..], key, i);
        forall j | 0 < j <= i ensures !IsTruthy(FieldAt(vs, keys, j, key)) {
          assert FieldAt(vs, keys[1..], j - 1, key) == FieldAt(vs, keys, j, key);
        }
        assert FirstTruthyAt(vs, keys, key, i + 1);
      } else {
        forall j | 0 < j < |keys| ensures !IsTruthy(FieldAt(vs, keys, j, key)) {
          assert FieldAt(vs, keys[1..], j - 1, key) == FieldAt(vs, keys, j, key);
        }
      }
    } else if |keys| > 0 {
      assert FirstTruthyAt(vs, keys, key, 0);
    }
  }

  /** The loop `if (vs[v][key] && !acc) acc = vs[v][key]` over `keys` in order. */
  function PickFirst(vs: Obj, keys: seq<string>, key: string, acc: Json): (r: Json)
    ensures Truthy(acc) ==> r == acc
    ensures !Truthy(acc) && NoneTruthy(vs, keys, key) ==> r == acc
    ensures !Truthy(acc) ==> forall i :: FirstTruthyAt(vs, keys, key, i) ==> Some(r) == FieldAt(vs, keys, i, key)
    decreases |keys|
  {
    if |keys| == 0 then acc
    else
      var f := FieldAt(vs, keys, 0, key);
      var acc' := if IsTruthy(f) && !Truthy(acc) then f.value else acc;
      FieldAtTail(vs, keys, key);
      assert !Truthy(acc) && !IsTruthy(f) ==>
        forall i :: FirstTruthyAt(vs, keys, key, i) ==> FirstTruthyAt(vs, keys[1..], key, i - 1);
      PickFirst(vs, keys[1..], key, acc')
  }

  /** The first truthy property `key` among the records, in iteration order,
      or "" when none has one. */
  ghost function FirstTruthy(vs: Obj, key: string): Json {
    if exists i :: FirstTruthyAt(vs, vs.keys, key, i) then
      var i :| FirstTruthyAt(vs, vs.keys, key, i);
      FieldAt(vs, vs.keys, i, key).value
    else JStr("")
  }

  /** Deleting other properties from the records leaves the first truthy `key` alone. */
  lemma FirstTruthyStrip(vs: Obj, ks: seq<string>, key: string)
    requires key !in ks
    ensures FirstTruthy(StripRecords(vs, ks), key) == FirstTruthy(vs, key)
  {
    var ws := StripRecords(vs, ks);
    forall i | 0 <= i < |vs.keys| ensures FieldAt(ws, ws.keys, i, key) == FieldAt(vs, vs.keys, i, key) {
      PropOfStripRecords(vs, ks, vs.keys[i], key);
    }
    assert forall i :: FirstTruthyAt(ws, ws.keys, key, i) <==> FirstTruthyAt(vs, vs.keys, key, i);
    if exists i :: FirstTruthyAt(vs, vs.keys, key, i) {
      var i :| FirstTruthyAt(ws, ws.keys, key, i);
      var j :| FirstTruthyAt(vs, vs.keys, key, j);
      assert i == j;
    }
  }

  /** `doc.versions[doc["dist-tags"].latest]`. */
  function LatestRecord(doc: Obj): Option<Json> {
    Get(Versions(doc), Str(LatestTag(doc)))
  }

  /** `readmeTrim` starts from the latest version's readme when it has one. */
  predicate LatestHasReadme(doc: Obj) {
    IsTruthy(LatestTag(doc)) && IsTruthy(Prop(LatestRecord(doc), "readme"))
  }

  /** The readme the root ends up with, before the cap: the latest version's,
      else the root's own, else the first version's that has one, else "". */
  ghost function ChosenReadme(doc: Obj): Json {
    if LatestHasReadme(doc) then Prop(LatestRecord(doc), "readme").value
    else if IsTruthy(Get(doc, "readme")) then Get(doc, "readme").value
    else FirstTruthy(Versions(doc), "readme")
  }

  /** The readme file name the root ends up with. It starts from the latest
      version's (or "") when the latest version has a readme, else from the
      root's own; when that is empty, the first version's that has one wins,
      independently of where the readme came from. */
  ghost function ChosenFilename(doc: Obj): Json {
    var start :=
      if LatestHasReadme(doc) then OrElse(Prop(LatestRecord(doc), "readmeFilename"), JStr(""))
      else OrElse(Get(doc, "readmeFilename"), JStr(""));
    if Truthy(start) then start else FirstTruthy(Versions(doc), "readmeFilename")
  }

  /** The loops of `readmeTrim` that pick the readme and its file name. */
  function PickReadme(doc: Obj): (p: (Json, Json))
    ensures p.0 == ChosenReadme(doc) && p.1 == ChosenFilename(doc)
  {
    var vs := Versions(doc);
    var latest := LatestRecord(doc);
    var readme0 :=
      if LatestHasReadme(doc) then Prop(latest, "readme").value
      else OrElse(Get(doc, "readme"), JStr(""));
    var name0 :=
      if LatestHasReadme(doc) then OrElse(Prop(latest, "readmeFilename"), JStr(""))
      else OrElse(Get(doc, "readmeFilename"), JStr(""));
    FirstTruthyExists(vs, vs.keys, "readme");
    FirstTruthyExists(vs, vs.keys, "readmeFilename");
    (PickFirst(vs, vs.keys, "readme", readme0), PickFirst(vs, vs.keys, "readmeFilename", name0))
  }

  /** `latestCopy`'s loop: each field is copied from the latest record when
      truthy there and deleted from the root otherwise. */
  function CopyFrom(doc: Obj, latest: Json, ks: seq<string>): (r: Obj)
    ensures forall k :: k in ks ==> Get(r, k) == (if IsTruthy(Field(latest, k)) then Field(latest, k) else None)
    ensures forall k {:trigger Get(r, k)} :: k !in ks ==> Get(r, k) == Get(doc, k)
    decreases |ks|
  {
    if |ks| == 0 then doc
    else
      var f := Field(latest, ks[0]);
      var d := if IsTruthy(f) then Set(doc, ks[0], f.value) else Remove(doc, ks[0]);
      CopyFrom(d, latest, ks[1..])
  }

  /** `latestCopy` does anything at all: `dist-tags` and `versions` are set
      and the latest record is a non-null object (an array included). */
  predicate CopiesLatest(doc: Obj) {
    && IsTruthy(Get(doc, "dist-tags"))
    && IsTruthy(Get(doc, "versions"))
    && LatestRecord(doc).Some?
    && (LatestRecord(doc).value.JObj? || LatestRecord(doc).value.JArr?)
  }

  /** `latestCopy(doc)`. */
  method LatestCopy(doc: Obj) returns (r: Obj)
    ensures CopiesLatest(doc) ==> forall k :: k in CopyFields ==>
              Get(r, k) == (if IsTruthy(Prop(LatestRecord(doc), k)) then Prop(LatestRecord(doc), k) else None)
    ensures forall k {:trigger Get(r, k)} :: k !in CopyFields ==> Get(r, k) == Get(doc, k)
    ensures !CopiesLatest(doc) ==> r == doc
  {
    r := if CopiesLatest(doc) then CopyFrom(doc, LatestRecord(doc).value, CopyFields) else doc;
  }

  /** None of the fields `latestCopy` writes is one the rest of `ok` writes,
      nor one of the record properties it deletes. */
  lemma CopyFieldsApart()
    ensures forall k :: k in CopyFields ==> k !in RootRewrites && k !in RecordScratch
  {
    forall i | 0 <= i < |CopyFields|
      ensures CopyFields[i][0] in "dhkrcabl"
      ensures CopyFields[i][0] == 'r' ==> |CopyFields[i]| == 10
      ensures CopyFields[i][0] == 'c' ==> |CopyFields[i]| == 12
    {
    }
  }

  /** Deleting record properties other than the readme and its file name
      keeps what `readmeTrim` picks. */
  lemma StripKeepsChosen(doc: Obj, s: Obj, ks: seq<string>)
    requires RecordsStripped(doc, s, ks)
    requires Get(s, "readme") == Get(doc, "readme")
    requires Get(s, "readmeFilename") == Get(doc, "readmeFilename")
    requires "readme" !in ks && "readmeFilename" !in ks
    ensures ChosenReadme(s) == ChosenReadme(doc)
    ensures ChosenFilename(s) == ChosenFilename(doc)
  {
    assert LatestTag(s) == LatestTag(doc);
    PropOfStripRecords(Versions(doc), ks, Str(LatestTag(doc)), "readme");
    PropOfStripRecords(Versions(doc), ks, Str(LatestTag(doc)), "readmeFilename");
    FirstTruthyStrip(Versions(doc), ks, "readme");
    FirstTruthyStrip(Versions(doc), ks, "readmeFilename");
  }

  /** Deleting record properties other than `k` keeps what `latestCopy`
      sees: whether it copies at all, and field `k` of the latest record. */
  lemma StripKeepsLatest(doc: Obj, s: Obj, ks: seq<string>, k: string)
    requires RecordsStripped(doc, s, ks)
    requires k !in ks
    ensures CopiesLatest(s) == CopiesLatest(doc)
    ensures Prop(LatestRecord(s), k) == Prop(LatestRecord(doc), k)
  {
    assert LatestTag(s) == LatestTag(doc);
    PropOfStripRecords(Versions(doc), ks, Str(LatestTag(doc)), k);
  }

  /** `readmeTrim(doc)`: moves the chosen readme and file name to the root,
      capping the readme at `README_MAXLEN`, and deletes both from every
      version record. */
  method ReadmeTrim(doc: Obj) returns (r: Obj)
    ensures Get(r, "readme") == Some(Cap(ChosenReadme(doc)))
    ensures Get(r, "readmeFilename") == Some(ChosenFilename(doc))
    ensures SameExcept(doc, r, ReadmeRewrites)
    ensures RecordsStripped(doc, r, ReadmeScratch)
  {
    var p := PickReadme(doc);
    var d := StripVersions(doc, ReadmeScratch);
    StripVersionsSpec(doc, ReadmeScratch);
    r := Set(Set(d, "readme", Cap(p.0)), "readmeFilename", p.1);
  }

  /** Stamping and `readmeTrim`: everything `ok` does before `latestCopy`. */
  method Prepare(doc: Obj, now: string) returns (r: Obj)
    ensures Get(r, "ctime") == None && Get(r, "mtime") == None
    ensures ObjectSlot(doc, "time") ==> Get(r, "time") == Some(JObj(StampTime(Time(doc), Versions(doc).keys, now)))
    ensures !ObjectSlot(doc, "time") ==> Get(r, "time") == Get(doc, "time")
    ensures Get(r, "readme") == Some(Cap(ChosenReadme(doc)))
    ensures Get(r, "readmeFilename") == Some(ChosenFilename(doc))
    ensures SameExcept(doc, r, RootRewrites)
    ensures RecordsStripped(doc, r, RecordScratch)
  {
    var s := Stamp(doc, now);
    assert ChosenReadme(s) == ChosenReadme(doc) && ChosenFilename(s) == ChosenFilename(doc) by {
      assert Get(s, "readme") == Get(doc, "readme") && Get(s, "readmeFilename") == Get(doc, "readmeFilename");
      StripKeepsChosen(doc, s, StampScratch);
    }
    r := ReadmeTrim(s);
    assert RecordsStripped(doc, r, RecordScratch) by {
      StripRecordsTwice(Versions(doc), StampScratch, ReadmeScratch);
    }
    SameExceptTrans(doc, s, r, StampRewrites, ReadmeRewrites);
  }

  /** Changes confined to `e1` and then to `e2` are confined to both. */
  lemma SameExceptTrans(a: Obj, b: Obj, c: Obj, e1: set<string>, e2: set<string>)
    requires SameExcept(a, b, e1) && SameExcept(b, c, e2)
    ensures SameExcept(a, c, e1 + e2)
  {
  }

  /** `t` is the `time` object `ok` leaves: `modified` is now, `created`
      keeps a truthy value or becomes now, every key of `keys` without a
      truthy entry gets now, and every other entry stays. */
  ghost predicate TimeStamped(time: Obj, keys: seq<string>, now: string, t: Option<Json>) {
    && t.Some? && t.value.JObj?
    && Get(t.value.obj, "modified") == Some(JStr(now))
    && Get(t.value.obj, "created") == Some(OrElse(Get(time, "created"), JStr(now)))
    && forall k {:trigger Get(t.value.obj, k)} :: k != "modified" && k != "created" ==>
         Get(t.value.obj, k) == if k in keys && !IsTruthy(Get(time, k)) then Some(JStr(now)) else Get(time, k)
  }

  /** `r` is `doc` as `ok` leaves it. Root `ctime` and `mtime` are gone,
      `time` is stamped (when it is an object or unset); no version record keeps `ctime`, `mtime`, `readme` or
      `readmeFilename` while its other properties stay; the root carries the
      chosen readme (capped) and file name; the copied fields mirror the
      latest version; and nothing else changes. */
  ghost predicate Finished(doc: Obj, r: Obj, now: string) {
    && Get(r, "ctime") == None && Get(r, "mtime") == None
    && (ObjectSlot(doc, "time") ==> TimeStamped(Time(doc), Versions(doc).keys, now, Get(r, "time")))
    && (!ObjectSlot(doc, "time") ==> Get(r, "time") == Get(doc, "time"))
    && RecordsStripped(doc, r, RecordScratch)
    && Get(r, "readme") == Some(Cap(ChosenReadme(doc)))
    && Get(r, "readmeFilename") == Some(ChosenFilename(doc))
    && (CopiesLatest(doc) ==> forall k :: k in CopyFields ==>
          Get(r, k) == (if IsTruthy(Prop(LatestRecord(doc), k)) then Prop(LatestRecord(doc), k) else None))
    && (!CopiesLatest(doc) ==> forall k :: k in CopyFields ==> Get(r, k) == Get(doc, k))
    && (forall k {:trigger Get(r, k)} :: k !in RootRewrites && k !in CopyFields ==> Get(r, k) == Get(doc, k))
  }

  /** `ok(doc)` up to the maintainers check: the document it writes. */
  method Finish(doc: Obj, now: string) returns (r: Obj)
    ensures Finished(doc, r, now)
  {
    var p := Prepare(doc, now);
    CopyFieldsApart();
    StripKeepsLatest(doc, p, RecordScratch, "description");
    forall k | k in CopyFields ensures Prop(LatestRecord(p), k) == Prop(LatestRecord(doc), k) {
      StripKeepsLatest(doc, p, RecordScratch, k);
    }
    r := LatestCopy(p);
  }

  /** Properties `ok` never writes. */
  const Untouched: set<string> := {"_id", "_rev", "name", "maintainers", "dist-tags", "users", "_attachments"}

  lemma UntouchedApart()
    ensures forall k :: k in Untouched ==> k !in RootRewrites && k !in CopyFields
  {
    CopyFieldsApart();
  }

  /** `ok` leaves the identity, revision, name, maintainers, tags, users and
      attachments of a document alone. */
  lemma FinishedKeeps(doc: Obj, r: Obj, now: string, k: string)
    requires Finished(doc, r, now)
    requires k in Untouched
    ensures Get(r, k) == Get(doc, k)
  {
    UntouchedApart();
  }

  /** What `ok(doc, message)` returns: the finished document, saved with the
      message when it has maintainers and refused otherwise; the refusal
      carries the finished document too. */
  ghost predicate OkReply(doc: Obj, note: Note, now: string, r: Reply) {
    && (r.Refused? <==> !IsTruthy(Get(doc, "maintainers")))
    && (r.Saved? ==> r.note == note && Finished(doc, r.doc, now))
    && (r.Refused? ==> r.reason.NoMaintainers? && r.reason.doc.JObj? && Finished(doc, r.reason.doc.obj, now))
  }

  /** `ok(doc, message)`: the finished document and the message, or the
      "no maintainers?" error carrying the finished document. */
  method Ok(doc: Obj, note: Note, now: string) returns (r: Reply)
    ensures OkReply(doc, note, now, r)
  {
    var d := Finish(doc, now);
    FinishedKeeps(doc, d, now, "maintainers");
    r := if !IsTruthy(Get(d, "maintainers")) then Error(NoMaintainers(JObj(d))) else Saved(d, note);
  }
}

=== FILE: json.dfy ===
/**
 JSON values as the update handler sees them after parsing, with the few
 JavaScript semantics the handler relies on: truthiness, property reads that
 may yield `undefined`, property writes and deletes that keep insertion order,
 conversion to a string, strict equality and deep equality.

 An object is its property map together with the order in which `for (k in o)`
 visits the keys: writing an existing property keeps its place, writing a new
 one appends it, deleting one removes it from the order.
 */
module Json {

  datatype Option<+T> = None | Some(value: T)

  datatype Json =
    | JNull
    | JBool(b: bool)
    | JNum(n: int)
    | JStr(s: string)
    | JArr(items: seq<Json>)
    | JObj(obj: Obj)

  /** An object: its keys in iteration order and its properties. */
  datatype Obj = Obj(keys: seq<string>, vals: map<string, Json>)

  /** `{}`. */
  const Empty: Obj := Obj([], map[])

  /** The order lists every property exactly once, as in any object the
      parser or the handler builds. */
  ghost predicate WellFormed(o: Obj) {
    && (forall k :: k in o.keys <==> k in o.vals)
    && Distinct(o.keys)
  }

  /** No key occurs twice. */
  ghost predicate Distinct(ks: seq<string>) {
    forall i, j :: 0 <= i < j < |ks| ==> ks[i] != ks[j]
  }

  /** JavaScript truthiness of a value. */
  predicate Truthy(j: Json) {
    match j
    case JNull => false
    case JBool(b) => b
    case JNum(n) => n != 0
    case JStr(s) => s != ""
    case JArr(_) => true
    case JObj(_) => true
  }

  /** Truthiness of a property read; an absent property reads as `undefined`. */
  predicate IsTruthy(o: Option<Json>) {
    o.Some? && Truthy(o.value)
  }

  /** `x || y` on a property read. */
  function OrElse(o: Option<Json>, fallback: Json): (r: Json)
    ensures IsTruthy(o) ==> Some(r) == o
    ensures !IsTruthy(o) ==> r == fallback
  {
    if IsTruthy(o) then o.value else fallback
  }

  /** `o[k]`; `undefined` when the property is absent. */
  function Get(o: Obj, k: string): Option<Json> {
    if k in o.vals then Some(o.vals[k]) else None
  }

  /** `ks` without the keys `drop` selects, in order. */
  function Without(ks: seq<string>, drop: string -> bool): (r: seq<string>)
    ensures forall k :: k in r <==> k in ks && !drop(k)
  {
    if |ks| == 0 then []
    else if drop(ks[0]) then Without(ks[1..], drop)
    else [ks[0]] + Without(ks[1..], drop)
  }

  /** Filtering twice with the same test filters once. */
  lemma {:induction false} WithoutIdem(ks: seq<string>, drop: string -> bool)
    ensures Without(Without(ks, drop), drop) == Without(ks, drop)
  {
    if |ks| > 0 {
      WithoutIdem(ks[1..], drop);
    }
  }

  /** Filtering keeps the keys distinct. */
  lemma {:induction false} WithoutDistinct(ks: seq<string>, drop: string -> bool)
    requires Distinct(ks)
    ensures Distinct(Without(ks, drop))
  {
    if |ks| > 0 {
      WithoutDistinct(ks[1..], drop);
      if !drop(ks[0]) {
        var rest := Without(ks[1..], drop);
        assert ks[0] !in rest by {
          assert forall i :: 1 <= i < |ks| ==> ks[i] != ks[0];
          assert forall x :: x in ks[1..] ==> exists i :: 1 <= i < |ks| && ks[i] == x;
        }
        var r := [ks[0]] + rest;
        forall i, j | 0 <= i < j < |r| ensures r[i] != r[j] {
          if i == 0 {
            assert r[j] == rest[j - 1];
          } else {
            assert r[i] == rest[i - 1] && r[j] == rest[j - 1];
          }
        }
      }
    }
  }

  /** `o[k] = v`: a new key goes to the end of the order. */
  function Set(o: Obj, k: string, v: Json): (r: Obj)
    ensures WellFormed(o) ==> WellFormed(r)
  {
    Obj(if k in o.vals then o.keys else o.keys + [k], o.vals[k := v])
  }

  /** Deletes every property whose key satisfies `drop`. */
  function RemoveWhere(o: Obj, drop: string -> bool): (r: Obj)
    ensures WellFormed(o) ==> WellFormed(r)
  {
    var r := Obj(Without(o.keys, drop), map k | k in o.vals && !drop(k) :: o.vals[k]);
    assert WellFormed(o) ==> WellFormed(r) by {
      if WellFormed(o) {
        WithoutDistinct(o.keys, drop);
      }
    }
    r
  }

  /** `delete o[k]`. */
  function Remove(o: Obj, k: string): (r: Obj)
    ensures WellFormed(o) ==> WellFormed(r)
  {
    RemoveWhere(o, x => x == k)
  }

  /** `o.k` on any value: only objects have the named properties the handler reads. */
  function Field(j: Json, k: string): (r: Option<Json>)
    ensures r.Some? ==> j.JObj? && Get(j.obj, k) == r
  {
    if j.JObj? then Get(j.obj, k) else None
  }

  /** `x[k]` where `x` is itself a property read. */
  function Prop(x: Option<Json>, k: string): (r: Option<Json>)
    ensures r.Some? ==> x.Some? && x.value.JObj?
  {
    if x.Some? then Field(x.value, k) else None
  }

  /** A value read as an object; anything else iterates as `{}`. */
  function EntriesOf(o: Option<Json>): Obj {
    if o.Some? && o.value.JObj? then o.value.obj else Empty
  }

  /** Decimal rendering of an integer, as `String(n)`. */
  function IntToString(n: int): string {
    if n < 0 then "-" + NatToString(-n) else NatToString(n)
  }

  function NatToString(n: nat): (s: string)
    ensures |s| > 0
  {
    var d := ['0', '1', '2', '3', '4', '5', '6', '7', '8', '9'][n % 10];
    if n < 10 then [d] else NatToString(n / 10) + [d]
  }

  function JoinComma(ss: seq<string>): string {
    if |ss| == 0 then ""
    else if |ss| == 1 then ss[0]
    else ss[0] + "," + JoinComma(ss[1..])
  }

  /** JavaScript `String(j)`: what a value becomes as a property key or in `+`. */
  function ToStr(j: Json): string {
    match j
    case JNull => "null"
    case JBool(b) => if b then "true" else "false"
    case JNum(n) => IntToString(n)
    case JStr(s) => s
    case JArr(xs) =>
      // Array.prototype.join writes null elements as the empty string.
      JoinComma(seq(|xs|, i requires 0 <= i < |xs| => if xs[i] == JNull then "" else ToStr(xs[i])))
    case JObj(_) => "[object Object]"
  }

  /** `String(o)` on a property read; `undefined` becomes "undefined". */
  function Str(o: Option<Json>): string {
    if o.None? then "undefined" else ToStr(o.value)
  }

  /** `a === b` between two freshly read values: objects and arrays are never
      the same reference, everything else compares by value. */
  predicate StrictEq(a: Option<Json>, b: Option<Json>) {
    match (a, b)
    case (None, None) => true
    case (Some(x), Some(y)) => !x.JArr? && !x.JObj? && x == y
    case _ => false
  }

  /** Structural equality of two values; the order of object keys does not matter. */
  predicate DeepEq(a: Json, b: Json)
    decreases a
  {
    match a
    case JArr(xs) =>
      b.JArr? && |xs| == |b.items| && forall i :: 0 <= i < |xs| ==> DeepEq(xs[i], b.items[i])
    case JObj(o) =>
      b.JObj? && o.vals.Keys == b.obj.vals.Keys
      && forall k :: k in o.vals ==> DeepEq(o.vals[k], b.obj.vals[k])
    case _ => a == b
  }

  /** The test `JSON.stringify(x) === '{}'`: an object without properties. */
  predicate IsEmptyObject(o: Option<Json>) {
    o.Some? && o.value.JObj? && |o.value.obj.vals| == 0
  }

  /** Deep equality is reflexive, so resubmitting a stored record unchanged never conflicts. */
  lemma {:induction false} DeepEqReflexive(a: Json)
    ensures DeepEq(a, a)
    decreases a
  {
    match a
    case JArr(xs) =>
      forall i | 0 <= i < |xs| ensures DeepEq(xs[i], xs[i]) {
        DeepEqReflexive(xs[i]);
      }
    case JObj(o) =>
      forall k | k in o.vals ensures DeepEq(o.vals[k], o.vals[k]) {
        DeepEqReflexive(o.vals[k]);
      }
    case _ =>
  }
}

=== FILE: legacy.dfy ===
/**
 The two writes older clients make with `?version=` in the query:
 `addTag(tag, ver)` points a dist-tag at a published version, and
 `addNewVersion(ver, body)` publishes one version record. `legacyUpdate`
 chooses between them by the type of the body. `addNewVersion` is also the
 step `mergeVersions` takes for every version it has not seen before.
 */
module Legacy {
  import opened Json
  import opened Protocol
  import opened Finalize

  // ---------------------------------------------------------------- addTag

  /** `doc.versions[ver]` is truthy, read only when `doc.versions` is. */
  predicate Known(doc: Obj, ver: string) {
    IsTruthy(Get(doc, "versions")) && IsTruthy(Get(Versions(doc), ver))
  }

  /** What `addTag(tag, ver)` promises: the version must be strictly valid
      and already published; then `dist-tags[tag]` becomes its clean form and
      the document goes through `ok`. */
  ghost predicate TagOutcome(lib: Lib, doc: Obj, tag: string, ver: string, now: string, r: Reply) {
    && (!lib.semverValid(ver, false) ==> r == Refused(TagToInvalidVersion(tag, ver)))
    && (lib.semverValid(ver, false) && !Known(doc, ver) ==> r == Refused(TagToUnknownVersion(tag, ver)))
    && (lib.semverValid(ver, false) && Known(doc, ver) ==>
          OkReply(SetIn(doc, "dist-tags", tag, VersionValue(lib.semverClean(ver))), TagUpdated, now, r))
  }

  /** `addTag(tag, ver)`. */
  method AddTag(lib: Lib, doc: Obj, tag: string, ver: string, now: string) returns (r: Reply)
    ensures TagOutcome(lib, doc, tag, ver, now, r)
  {
    if !lib.semverValid(ver, false) {
      return Error(TagToInvalidVersion(tag, ver));
    }
    if !Known(doc, ver) {
      return Error(TagToUnknownVersion(tag, ver));
    }
    r := Ok(SetIn(doc, "dist-tags", tag, VersionValue(lib.semverClean(ver))), TagUpdated, now);
  }

  /** A saved tag write points `tag` at the clean version and leaves every
      other tag as it was stored. */
  lemma TagSaved(lib: Lib, doc: Obj, tag: string, ver: string, now: string, r: Reply)
    requires TagOutcome(lib, doc, tag, ver, now, r) && r.Saved?
    requires HasDistTags(doc)
    ensures r.note == TagUpdated
    ensures Get(DistTags(r.doc), tag) == Some(VersionValue(lib.semverClean(ver)))
    ensures forall t :: t != tag ==> Get(DistTags(r.doc), t) == Get(DistTags(doc), t)
  {
    var d := SetIn(doc, "dist-tags", tag, VersionValue(lib.semverClean(ver)));
    FinishedKeeps(d, r.doc, now, "dist-tags");
  }

  // --------------------------------------------------------- addNewVersion

  /** `body` is a non-null object in the JavaScript sense; arrays count. */
  predicate IsObject(body: Json) {
    body.JObj? || body.JArr?
  }

  /** `semver.clean(ver, true)` as a property key: null becomes "null". */
  function CleanKey(lib: Lib, ver: string): string {
    ToStr(VersionValue(lib.semverClean(ver)))
  }

  /** `ver` or its clean form is already a key of `doc.versions`. */
  predicate Exists(lib: Lib, doc: Obj, ver: string) {
    IsTruthy(Get(doc, "versions"))
    && (ver in Versions(doc).vals || CleanKey(lib, ver) in Versions(doc).vals)
  }

  /** `body.name` equals both the document's `name` and its `_id`. */
  predicate SameName(doc: Obj, body: Json) {
    StrictEq(Field(body, "name"), Get(doc, "name")) && StrictEq(Field(body, "name"), Get(doc, "_id"))
  }

  /** The cleaned version the body states. */
  function BodyVersion(lib: Lib, body: Json): Option<string> {
    CleanValue(lib, Field(body, "version"))
  }

  /** Every check `addNewVersion(ver, body)` makes before writing passes. */
  predicate Accepts(lib: Lib, doc: Obj, ver: string, body: Json) {
    && IsObject(body)
    && lib.semverValid(ver, true)
    && !Exists(lib, doc, ver)
    && SameName(doc, body)
    && BodyVersion(lib, body) == lib.semverClean(ver)
  }

  /** A property name that starts with an underscore. */
  predicate Private(k: string) {
    |k| > 0 && k[0] == '_'
  }

  /** `{name: user}`: the default `_npmUser`. */
  function Publisher(user: string): Json {
    JObj(Set(Empty, "name", JStr(user)))
  }

  /** `body.publishConfig` without its underscore keys, when it is an object. */
  function PublicConfig(o: Obj): (r: Obj)
    ensures forall x {:trigger Get(r, x)} :: x != "publishConfig" ==> Get(r, x) == Get(o, x)
  {
    var pc := Get(o, "publishConfig");
    if pc.Some? && pc.value.JObj? then Set(o, "publishConfig", JObj(RemoveWhere(pc.value.obj, Private))) else o
  }

  /** The properties `addNewVersion` writes onto an accepted object body. */
  function Stamped(lib: Lib, ctx: Context, doc: Obj, o: Obj): Obj {
    var v := VersionValue(BodyVersion(lib, JObj(o)));
    var o1 := Set(o, "version", v);
    var o2 := Set(o1, "_id", JStr(Str(Get(o, "name")) + "@" + ToStr(v)));
    var o3 := SetOpt(o2, "maintainers", Get(doc, "maintainers"));
    Set(o3, "_npmUser", OrElse(Get(o, "_npmUser"), Publisher(ctx.user)))
  }

  /** The record `addNewVersion` stores for an accepted body: the body with
      its `version` cleaned, `_id` set to name@version, the package's
      maintainers, a publishing user and a public `publishConfig`. An array
      body is stored as it is: the named properties written onto an array
      are not part of its JSON text. */
  function Record(lib: Lib, ctx: Context, doc: Obj, body: Json): Json {
    if body.JObj? then JObj(PublicConfig(Stamped(lib, ctx, doc, body.obj))) else body
  }

  /** The tag the new version is published under: the query's, else the
      body's `publishConfig.tag`, else the body's `tag`, else "latest". */
  function PublishTag(ctx: Context, body: Json): string {
    var pc := Field(body, "publishConfig");
    if Given(ctx.query.tag) then ctx.query.tag.value
    else if IsTruthy(pc) && IsTruthy(Field(pc.value, "tag")) then ToStr(Field(pc.value, "tag").value)
    else if IsTruthy(Field(body, "tag")) then ToStr(Field(body, "tag").value)
    else "latest"
  }

  /** The tag writes of `addNewVersion`: the publishing tag unless `pre` is
      given, then `latest` when it is falsy. */
  function Tagged(lib: Lib, ctx: Context, doc: Obj, body: Json): (r: Obj)
    ensures forall x {:trigger Get(r, x)} :: x != "dist-tags" ==> Get(r, x) == Get(doc, x)
  {
    var v := VersionValue(BodyVersion(lib, body));
    var d1 := if !Given(ctx.query.pre) then SetIn(doc, "dist-tags", PublishTag(ctx, body), v) else doc;
    if !IsTruthy(LatestTag(d1)) then SetIn(d1, "dist-tags", "latest", v) else d1
  }

  /** The document `addNewVersion` hands to `ok` once the body is accepted. */
  function Publish(lib: Lib, ctx: Context, doc: Obj, ver: string, body: Json): Obj {
    var key := CleanKey(lib, ver);
    var d := SetIn(Tagged(lib, ctx, doc, body), "versions", key, Record(lib, ctx, doc, body));
    SetIn(Default(d, "time"), "time", key, JStr(ctx.now))
  }

  /** The checks of `addNewVersion(ver, body)` in order: the first that
      fails gives `r` its refusal. */
  ghost predicate PublishChecks(lib: Lib, ctx: Context, doc: Obj, ver: string, body: Json, r: Reply) {
    && (!IsObject(body) ==> r == Refused(NotAnObject(ctx.query.version)))
    && (IsObject(body) && !lib.semverValid(ver, true) ==> r == Refused(InvalidVersion(ver)))
    && (IsObject(body) && lib.semverValid(ver, true) && Exists(lib, doc, ver) ==> r == Refused(ExistingVersion))
    && (IsObject(body) && lib.semverValid(ver, true) && !Exists(lib, doc, ver) && !SameName(doc, body) ==>
          r == Refused(InvalidName(Field(body, "name"))))
    && (IsObject(body) && lib.semverValid(ver, true) && !Exists(lib, doc, ver) && SameName(doc, body)
        && BodyVersion(lib, body) != lib.semverClean(ver) ==>
          r == Refused(VersionDisagrees(VersionValue(BodyVersion(lib, body)), VersionValue(lib.semverClean(ver)))))
  }

  /** What `addNewVersion(ver, body)` promises: its checks in order, each
      with its own refusal, and for an accepted body the published document
      through `ok`. */
  ghost predicate PublishOutcome(lib: Lib, ctx: Context, doc: Obj, ver: string, body: Json, r: Reply) {
    && PublishChecks(lib, ctx, doc, ver, body, r)
    && (Accepts(lib, doc, ver, body) ==> OkReply(Publish(lib, ctx, doc, ver, body), VersionAdded, ctx.now, r))
  }

  /** `addNewVersion(ver, body)`. */
  method AddNewVersion(lib: Lib, ctx: Context, doc: Obj, ver: string, body: Json) returns (r: Reply)
    ensures PublishOutcome(lib, ctx, doc, ver, body, r)
  {
    if !IsObject(body) {
      return Error(NotAnObject(ctx.query.version));
    }
    if !lib.semverValid(ver, true) {
      return Error(InvalidVersion(ver));
    }
    if Exists(lib, doc, ver) {
      return Error(ExistingVersion);
    }
    if !SameName(doc, body) {
      return Error(InvalidName(Field(body, "name")));
    }
    var bv := BodyVersion(lib, body);
    var cv := lib.semverClean(ver);
    if bv != cv {
      return Error(VersionDisagrees(VersionValue(bv), VersionValue(cv)));
    }
    r := Ok(Publish(lib, ctx, doc, ver, body), VersionAdded, ctx.now);
  }

  // ------------------------------------------------ what publishing writes

  /** The stored record's `version` is the cleaned body version and its
      `_id` is name@version. */
  lemma RecordIdentity(lib: Lib, ctx: Context, doc: Obj, body: Json)
    requires body.JObj?
    ensures Field(Record(lib, ctx, doc, body), "version") == Some(VersionValue(BodyVersion(lib, body)))
    ensures Field(Record(lib, ctx, doc, body), "_id") ==
              Some(JStr(Str(Field(body, "name")) + "@" + ToStr(VersionValue(BodyVersion(lib, body)))))
  {
  }

  /** The stored record's `maintainers` are the package's and its
      `_npmUser` defaults to the requester. */
  lemma RecordOwners(lib: Lib, ctx: Context, doc: Obj, body: Json)
    requires body.JObj?
    ensures Field(Record(lib, ctx, doc, body), "maintainers") == Get(doc, "maintainers")
    ensures Field(Record(lib, ctx, doc, body), "_npmUser") == Some(OrElse(Field(body, "_npmUser"), Publisher(ctx.user)))
  {
  }

  /** Every other property of the body is stored as sent. */
  lemma RecordKeeps(lib: Lib, ctx: Context, doc: Obj, body: Json, k: string)
    requires body.JObj?
    requires k !in {"version", "_id", "maintainers", "_npmUser", "publishConfig"}
    ensures Field(Record(lib, ctx, doc, body), k) == Field(body, k)
  {
  }

  /** The stored `publishConfig` has no underscore keys and keeps every other
      key; a `publishConfig` that is not an object is kept as it is. */
  lemma RecordPublishConfig(lib: Lib, ctx: Context, doc: Obj, body: Json, k: string)
    requires body.JObj?
    ensures var pc := Field(body, "publishConfig");
            pc.Some? && pc.value.JObj? ==>
              Prop(Field(Record(lib, ctx, doc, body), "publishConfig"), k) == if Private(k) then None else Prop(pc, k)
    ensures var pc := Field(body, "publishConfig");
            !(pc.Some? && pc.value.JObj?) ==> Field(Record(lib, ctx, doc, body), "publishConfig") == pc
  {
  }

  /** Publishing touches only `dist-tags`, `versions` and `time`. */
  lemma PublishFrame(lib: Lib, ctx: Context, doc: Obj, ver: string, body: Json)
    ensures SameExcept(doc, Publish(lib, ctx, doc, ver, body), {"dist-tags", "versions", "time"})
  {
  }

  /** The publishing tag points at the new version unless `pre` is given,
      `latest` does too when it was falsy, and no other tag changes. */
  lemma PublishTags(lib: Lib, ctx: Context, doc: Obj, ver: string, body: Json, t: string)
    requires HasDistTags(doc)
    ensures Get(DistTags(Publish(lib, ctx, doc, ver, body)), t) ==
              if (t == PublishTag(ctx, body) && !Given(ctx.query.pre))
                 || (t == "latest" && !IsTruthy(Get(DistTags(doc), "latest")))
              then Some(VersionValue(BodyVersion(lib, body)))
              else Get(DistTags(doc), t)
  {
  }

  /** Without a `dist-tags` object no tag is written. */
  lemma PublishNoTags(lib: Lib, ctx: Context, doc: Obj, ver: string, body: Json)
    requires !HasDistTags(doc)
    ensures Get(Publish(lib, ctx, doc, ver, body), "dist-tags") == Get(doc, "dist-tags")
  {
  }

  /** The record goes under the clean version key and no other version
      changes; a new key comes last in iteration order. */
  lemma PublishVersions(lib: Lib, ctx: Context, doc: Obj, ver: string, body: Json, k: string)
    requires HasVersions(doc)
    ensures Get(Versions(Publish(lib, ctx, doc, ver, body)), k) ==
              if k == CleanKey(lib, ver) then Some(Record(lib, ctx, doc, body)) else Get(Versions(doc), k)
    ensures CleanKey(lib, ver) !in Versions(doc).vals ==>
              Versions(Publish(lib, ctx, doc, ver, body)).keys == Versions(doc).keys + [CleanKey(lib, ver)]
  {
  }

  /** The clean version key gets the publishing time; no other time entry
      changes. */
  lemma PublishTime(lib: Lib, ctx: Context, doc: Obj, ver: string, body: Json, k: string)
    requires ObjectSlot(doc, "time")
    ensures Get(Time(Publish(lib, ctx, doc, ver, body)), k) ==
              if k == CleanKey(lib, ver) then Some(JStr(ctx.now)) else Get(Time(doc), k)
  {
    var d3 := SetIn(Tagged(lib, ctx, doc, body), "versions", CleanKey(lib, ver), Record(lib, ctx, doc, body));
    assert Get(d3, "time") == Get(doc, "time");
  }

  /** A `time` that is a truthy primitive or an array stays as it is. */
  lemma PublishKeepsTime(lib: Lib, ctx: Context, doc: Obj, ver: string, body: Json)
    requires !ObjectSlot(doc, "time")
    ensures Get(Publish(lib, ctx, doc, ver, body), "time") == Get(doc, "time")
  {
    var d3 := SetIn(Tagged(lib, ctx, doc, body), "versions", CleanKey(lib, ver), Record(lib, ctx, doc, body));
    assert Get(d3, "time") == Get(doc, "time");
  }

  // ---------------------------------------------------------- legacyUpdate

  /** What `legacyUpdate(doc, body, version)` promises: a string body tags
      that version, anything else publishes under it. */
  ghost predicate LegacyOutcome(lib: Lib, ctx: Context, doc: Obj, version: string, body: Json, r: Reply) {
    && (body.JStr? ==> TagOutcome(lib, doc, version, body.s, ctx.now, r))
    && (!body.JStr? ==> PublishOutcome(lib, ctx, doc, version, body, r))
  }

  /** `legacyUpdate(doc, body, version)`. */
  method LegacyUpdate(lib: Lib, ctx: Context, doc: Obj, version: string, body: Json) returns (r: Reply)
    ensures LegacyOutcome(lib, ctx, doc, version, body, r)
  {
    if body.JStr? {
      r := AddTag(lib, doc, version, body.s, ctx.now);
    } else {
      r := AddNewVersion(lib, ctx, doc, version, body);
    }
  }
}

=== FILE: merge.dfy ===
/**
 `mergeVersions(newdoc, doc)`: folds the version records of a full-document
 PUT into the stored document. A version the document does not have yet is
 published through `addNewVersion`; a published one may only gain a truthy
 `deprecated`, and must otherwise be sent back unchanged; with a matching
 `_rev` the versions the client left out are removed.
 */
module Merge {
  import opened Json
  import opened Protocol
  import opened Finalize
  import opened Legacy

  /** How a stage of `updateDoc` ends: it goes on with the document, or it
      stops with a reply that `isError` recognises. */
  datatype Step = Continue(doc: Obj) | Stop(reply: Reply)

  /** The root properties a merge of versions may write: `versions`, the
      tags and `time` a publication writes, and what `ok` rewrites after
      one. */
  predicate MergeWrites(p: string) {
    p in RootRewrites || p in CopyFields || p == "dist-tags"
  }

  /** A reply that stops the merge was saved only for a document with
      maintainers, and blames missing maintainers only when there are none. */
  predicate OwnersAgree(doc: Obj, reply: Reply) {
    && (reply.Saved? ==> IsTruthy(Get(doc, "maintainers")))
    && (reply.Refused? && reply.reason.NoMaintainers? ==> !IsTruthy(Get(doc, "maintainers")))
  }

  /** `b` agrees with `a` on every property a merge does not write. */
  ghost predicate KeepsRoot(a: Obj, b: Obj) {
    forall p {:trigger Get(b, p)} :: !MergeWrites(p) ==> Get(b, p) == Get(a, p)
  }

  /** A merge keeps the maintainers. */
  lemma KeepsOwners(a: Obj, b: Obj)
    requires KeepsRoot(a, b)
    ensures Get(b, "maintainers") == Get(a, "maintainers")
  {
    UntouchedApart();
    assert !MergeWrites("maintainers");
  }

  lemma KeepsRootTrans(a: Obj, b: Obj, c: Obj)
    requires KeepsRoot(a, b) && KeepsRoot(b, c)
    ensures KeepsRoot(a, c)
  {
  }

  // ------------------------------------------------- published records

  /** `aged` is the stored record `stored` after merges: `ok` may have deleted
      some of its scratch properties (`readme`, `readmeFilename`, `ctime`,
      `mtime`), its `deprecated` is `dep` when one was given, and nothing
      else differs. A record that is not an object never changes. */
  ghost predicate Aged(stored: Json, aged: Json, dep: Option<Json>) {
    && (!stored.JObj? ==> aged == stored)
    && (stored.JObj? ==>
          && aged.JObj?
          && (forall p {:trigger Get(aged.obj, p)} :: p != "deprecated" ==>
                Get(aged.obj, p) == Get(stored.obj, p) || (p in RecordScratch && Get(aged.obj, p) == None))
          && Get(aged.obj, "deprecated") == (if dep.Some? then dep else Get(stored.obj, "deprecated")))
  }

  lemma DeprecatedNotScratch()
    ensures "deprecated" !in RecordScratch
  {
  }

  /** Deleting the scratch properties ages a record. */
  lemma AgedStrip(j: Json)
    ensures Aged(j, Strip(j, RecordScratch), None)
  {
    DeprecatedNotScratch();
  }

  /** Ageing composes; a later `deprecated` wins. */
  lemma AgedTrans(a: Json, b: Json, c: Json, d1: Option<Json>, d2: Option<Json>)
    requires Aged(a, b, d1) && Aged(b, c, d2)
    ensures Aged(a, c, if d2.Some? then d2 else d1)
  {
  }

  /** An aged record is as truthy as the original. */
  lemma AgedTruthy(a: Json, b: Json, d: Option<Json>)
    requires Aged(a, b, d)
    ensures Truthy(a) == Truthy(b)
  {
  }

  /** The `deprecated` a sent record carries onto the stored one: its own, when truthy. */
  function Deprecation(sent: Option<Json>): (d: Option<Json>)
    ensures d.Some? <==> IsTruthy(Prop(sent, "deprecated"))
    ensures d.Some? ==> d == Prop(sent, "deprecated")
  {
    var d := Prop(sent, "deprecated");
    if IsTruthy(d) then d else None
  }

  // ------------------------------------------------ one version of newdoc

  /** `delete nv.directories` when the stored record has no truthy
      `directories` and the sent one is `{}`. */
  function DropEmptyDirectories(nv: Json, ov: Option<Json>): (r: Json)
    ensures Field(r, "directories") ==
              if IsTruthy(ov) && !IsTruthy(Prop(ov, "directories")) && IsEmptyObject(Field(nv, "directories"))
              then None else Field(nv, "directories")
    ensures forall p {:trigger Field(r, p)} :: p != "directories" ==> Field(r, p) == Field(nv, p)
    ensures r.JObj? == nv.JObj? && Truthy(r) == Truthy(nv)
  {
    if IsTruthy(ov) && !IsTruthy(Prop(ov, "directories")) && IsEmptyObject(Field(nv, "directories"))
    then JObj(Remove(nv.obj, "directories"))
    else nv
  }

  /** Ageing a stored record does not change what `DropEmptyDirectories`
      does with it. */
  lemma DropAged(nv: Json, stored: Json, aged: Json, dep: Option<Json>)
    requires Aged(stored, aged, dep)
    ensures DropEmptyDirectories(nv, Some(aged)) == DropEmptyDirectories(nv, Some(stored))
  {
    assert "directories" !in RecordScratch;
  }

  /** The record `nv` sent for the stored record `stored` passes the
      conflict check: it carries a truthy `deprecated`, or, once an empty
      `directories` is dropped as the check drops it, it is deep-equal to
      the stored record as earlier merges may have aged it. */
  ghost predicate Resent(stored: Json, nv: Json) {
    || IsTruthy(Field(nv, "deprecated"))
    || exists a :: Aged(stored, a, None) && DeepEq(DropEmptyDirectories(nv, Some(stored)), a)
  }

  /** A record that passes against an aged form of the stored one passes
      against the stored one. */
  lemma ResentAged(stored: Json, aged: Json, nv: Json)
    requires Aged(stored, aged, None) && Resent(aged, nv)
    ensures Resent(stored, nv)
  {
    if !IsTruthy(Field(nv, "deprecated")) {
      var a :| Aged(aged, a, None) && DeepEq(DropEmptyDirectories(nv, Some(aged)), a);
      AgedTrans(stored, aged, a, None, None);
      DropAged(nv, stored, aged, None);
    }
  }

  /** `d` agrees with `doc` on the root properties a merge keeps, and on
      whether `versions` is an object. */
  ghost predicate Steady(doc: Obj, d: Obj) {
    && KeepsRoot(doc, d)
    && HasVersions(d) == HasVersions(doc)
    && (!HasVersions(doc) ==> Get(d, "versions") == Get(doc, "versions"))
  }

  /** The stored record `v` of `doc` is aged with `dep` in `d`, and every
      other record is unchanged. */
  ghost predicate Revised(doc: Obj, d: Obj, v: string, dep: Option<Json>) {
    && v in Versions(doc).vals
    && Versions(d).vals.Keys == Versions(doc).vals.Keys
    && (forall x {:trigger Versions(d).vals[x]} :: x in Versions(doc).vals && x != v ==>
          Versions(d).vals[x] == Versions(doc).vals[x])
    && Aged(Versions(doc).vals[v], Versions(d).vals[v], dep)
  }

  /** The version `v`, sent as `nv`, is new in `d`: its key is clean, its
      record is the one `addNewVersion` stores for `nv` without `ok`'s
      scratch properties, and `ok` has deleted the scratch properties of
      every other record. */
  ghost predicate Added(lib: Lib, ctx: Context, doc: Obj, d: Obj, v: string, nv: Json) {
    && lib.semverClean(v) == Some(v)
    && (HasVersions(doc) ==>
          && v !in Versions(doc).vals
          && Get(Versions(d), v) == Some(Strip(Record(lib, ctx, doc, nv), RecordScratch))
          && Versions(d).vals.Keys == Versions(doc).vals.Keys + {v}
          && forall x {:trigger Versions(d).vals[x]} :: x in Versions(doc).vals ==>
               Versions(d).vals[x] == Strip(Versions(doc).vals[x], RecordScratch))
  }

  /** The step for a version the document already has: a truthy
      `deprecated` is copied onto the stored record, a deep-equal record
      changes nothing, and any other record is a conflict. */
  function Revise(doc: Obj, v: string, sent: Json): (s: Step)
    requires IsTruthy(Get(Versions(doc), v))
    ensures s.Stop? <==> !IsTruthy(Field(sent, "deprecated")) && !DeepEq(sent, Get(Versions(doc), v).value)
    ensures s.Stop? ==> s.reply == Refused(Conflict(v, Get(Versions(doc), v).value, sent))
    ensures !IsTruthy(Field(sent, "deprecated")) && DeepEq(sent, Get(Versions(doc), v).value) ==> s == Continue(doc)
    ensures s.Continue? ==> Truthy(sent) && Steady(doc, s.doc) && Revised(doc, s.doc, v, Deprecation(Some(sent)))
    ensures s.Continue? ==> SameExcept(doc, s.doc, {"versions"})
  {
    var ov := Get(Versions(doc), v).value;
    var dep := Field(sent, "deprecated");
    if IsTruthy(dep) then
      var d := if ov.JObj? then SetIn(doc, "versions", v, JObj(Set(ov.obj, "deprecated", dep.value))) else doc;
      assert Steady(doc, d) && Revised(doc, d, v, Deprecation(Some(sent))) by {
        DeprecatedNotScratch();
      }
      Continue(d)
    else if !DeepEq(sent, ov) then Stop(Error(Conflict(v, ov, sent)))
    else
      assert Truthy(sent) by {
        DeepEqTruthy(sent, ov);
      }
      Continue(doc)
  }

  /** Deep-equal values are equally truthy. */
  lemma DeepEqTruthy(a: Json, b: Json)
    requires DeepEq(a, b)
    ensures Truthy(a) == Truthy(b)
  {
  }

  /** Sending a stored record back as it is, without a truthy
      `deprecated`, passes the conflict check and changes nothing. */
  lemma ResendUnchanged(doc: Obj, v: string)
    requires IsTruthy(Get(Versions(doc), v))
    requires !IsTruthy(Prop(Get(Versions(doc), v), "deprecated"))
    ensures var ov := Get(Versions(doc), v);
            Revise(doc, v, DropEmptyDirectories(ov.value, ov)) == Continue(doc)
  {
    var ov := Get(Versions(doc), v);
    assert DropEmptyDirectories(ov.value, ov) == ov.value;
    DeepEqReflexive(ov.value);
  }

  /** Publishing the version `v`, sent as `nv`, ends the merge with
      `reply`: the key is not its own clean form; a check of
      `addNewVersion` fails, with that check's refusal; or `ok` refuses the
      published document for want of maintainers, or saves it under the
      `.error.` id that `isError` takes for an error. */
  ghost predicate Rejects(lib: Lib, ctx: Context, doc: Obj, v: string, nv: Json, reply: Reply) {
    if lib.semverClean(v) != Some(v) || v == "" then reply == Refused(UncleanVersionKey(v))
    else if !Accepts(lib, doc, v, nv) then PublishChecks(lib, ctx, doc, v, nv, reply)
    else if !IsTruthy(Get(doc, "maintainers")) then reply.Refused? && reply.reason.NoMaintainers?
    else Get(doc, "_id") == Some(JStr(".error.")) && reply.Saved? && reply.note == VersionAdded
  }

  /** `addNewVersion` publishes the version `v`, sent as `nv`, and the merge
      goes on: the key is its own clean form, every check passes, and `ok`
      saves the published document, which has maintainers, under an
      ordinary `_id`. Exactly the case `Rejects` leaves out. */
  predicate Publishable(lib: Lib, doc: Obj, v: string, nv: Json) {
    && lib.semverClean(v) == Some(v) && v != ""
    && Accepts(lib, doc, v, nv)
    && IsTruthy(Get(doc, "maintainers"))
    && Get(doc, "_id") != Some(JStr(".error."))
  }

  /** The step for a version the document does not have: its key must be
      its own clean form, then `addNewVersion(v, nv)` publishes it, and an
      error from it ends the merge. */
  method AddVersion(lib: Lib, ctx: Context, doc: Obj, v: string, nv: Json) returns (s: Step)
    ensures (lib.semverClean(v) != Some(v) || v == "") ==> s == Stop(Refused(UncleanVersionKey(v)))
    ensures lib.semverClean(v) == Some(v) && v != "" ==>
              PublishOutcome(lib, ctx, doc, v, nv, if s.Stop? then s.reply else Saved(s.doc, VersionAdded))
    ensures s.Stop? ==> IsError(s.reply) && OwnersAgree(doc, s.reply) && Rejects(lib, ctx, doc, v, nv, s.reply)
    ensures s.Continue? ==> Truthy(nv) && Steady(doc, s.doc) && Added(lib, ctx, doc, s.doc, v, nv)
    ensures s.Continue? ==> Publishable(lib, doc, v, nv)
  {
    var vc := lib.semverClean(v);
    if !(vc.Some? && vc.value != "") || v != vc.value {
      return Stop(Error(UncleanVersionKey(v)));
    }
    var res := AddNewVersion(lib, ctx, doc, v, nv);
    if IsError(res) {
      AddVersionStops(lib, ctx, doc, v, nv, res);
      return Stop(res);
    }
    PublishAccepted(lib, ctx, doc, v, nv, res);
    AddVersionPublishable(lib, ctx, doc, v, nv, res);
    AddVersionContinues(lib, ctx, doc, v, nv, res.doc);
    s := Continue(res.doc);
  }

  /** An error from `addNewVersion` on a clean key is one of its refusals. */
  lemma AddVersionStops(lib: Lib, ctx: Context, doc: Obj, v: string, nv: Json, r: Reply)
    requires lib.semverClean(v) == Some(v) && v != ""
    requires PublishOutcome(lib, ctx, doc, v, nv, r) && IsError(r)
    ensures OwnersAgree(doc, r) && Rejects(lib, ctx, doc, v, nv, r)
  {
    PublishFrame(lib, ctx, doc, v, nv);
    var p := Publish(lib, ctx, doc, v, nv);
    assert Get(p, "maintainers") == Get(doc, "maintainers") && Get(p, "_id") == Get(doc, "_id");
    if Accepts(lib, doc, v, nv) && r.Saved? {
      FinishedKeeps(p, r.doc, ctx.now, "_id");
    }
  }

  /** A publication that is saved, and is no error, was publishable. */
  lemma AddVersionPublishable(lib: Lib, ctx: Context, doc: Obj, v: string, nv: Json, r: Reply)
    requires lib.semverClean(v) == Some(v) && v != ""
    requires PublishOutcome(lib, ctx, doc, v, nv, r) && r.Saved? && !IsError(r)
    ensures Publishable(lib, doc, v, nv)
  {
    PublishFrame(lib, ctx, doc, v, nv);
    var p := Publish(lib, ctx, doc, v, nv);
    assert Get(p, "maintainers") == Get(doc, "maintainers") && Get(p, "_id") == Get(doc, "_id");
    FinishedKeeps(p, r.doc, ctx.now, "_id");
  }

  /** A publication `addNewVersion` saved adds the version. */
  lemma AddVersionContinues(lib: Lib, ctx: Context, doc: Obj, v: string, nv: Json, d: Obj)
    requires Accepts(lib, doc, v, nv) && Finished(Publish(lib, ctx, doc, v, nv), d, ctx.now)
    requires lib.semverClean(v) == Some(v)
    ensures Truthy(nv) && Steady(doc, d) && Added(lib, ctx, doc, d, v, nv)
  {
    PublishSteady(lib, ctx, doc, v, nv);
    if HasVersions(doc) {
      PublishRecords(lib, ctx, doc, v, nv);
    }
    AddedFromFinished(lib, ctx, doc, v, nv, Publish(lib, ctx, doc, v, nv), d, ctx.now);
  }

  /** A write `addNewVersion` lets through passed every check and is the
      published document after `ok`. */
  lemma PublishAccepted(lib: Lib, ctx: Context, doc: Obj, v: string, nv: Json, r: Reply)
    requires PublishOutcome(lib, ctx, doc, v, nv, r) && r.Saved?
    ensures Accepts(lib, doc, v, nv) && r.note == VersionAdded
    ensures Finished(Publish(lib, ctx, doc, v, nv), r.doc, ctx.now)
  {
  }

  /** A write to one root property a merge may write keeps the root. */
  lemma KeepsRootApart(a: Obj, b: Obj, slot: string)
    requires slot in {"dist-tags", "versions", "time"}
    requires forall x {:trigger Get(b, x)} :: x != slot ==> Get(b, x) == Get(a, x)
    ensures KeepsRoot(a, b)
  {
  }

  /** Publishing writes only root properties a merge may write, and keeps whether
      `versions` is an object. */
  lemma PublishSteady(lib: Lib, ctx: Context, doc: Obj, v: string, nv: Json)
    ensures Steady(doc, Publish(lib, ctx, doc, v, nv))
  {
    var key := CleanKey(lib, v);
    var t := Tagged(lib, ctx, doc, nv);
    var d := SetIn(t, "versions", key, Record(lib, ctx, doc, nv));
    var e := Default(d, "time");
    var p := SetIn(e, "time", key, JStr(ctx.now));
    assert p == Publish(lib, ctx, doc, v, nv);
    StagesSteady(doc, t, d, e, p);
  }

  /** The four writes of a publication keep the root properties a merge keeps. */
  lemma StagesSteady(doc: Obj, t: Obj, d: Obj, e: Obj, p: Obj)
    requires forall x {:trigger Get(t, x)} :: x != "dist-tags" ==> Get(t, x) == Get(doc, x)
    requires forall x {:trigger Get(d, x)} :: x != "versions" ==> Get(d, x) == Get(t, x)
    requires HasVersions(d) == HasVersions(t) && (!HasVersions(t) ==> d == t)
    requires forall x {:trigger Get(e, x)} :: x != "time" ==> Get(e, x) == Get(d, x)
    requires forall x {:trigger Get(p, x)} :: x != "time" ==> Get(p, x) == Get(e, x)
    ensures Steady(doc, p)
  {
    KeepsRootApart(doc, t, "dist-tags");
    KeepsRootApart(t, d, "versions");
    KeepsRootApart(d, e, "time");
    KeepsRootApart(e, p, "time");
    KeepsRootTrans(doc, t, d);
    KeepsRootTrans(doc, d, e);
    KeepsRootTrans(doc, e, p);
  }

  /** Every record of the published document: the new one under the clean
      key, the others as they were. */
  lemma PublishRecords(lib: Lib, ctx: Context, doc: Obj, v: string, nv: Json)
    requires HasVersions(doc)
    ensures forall x {:trigger Get(Versions(Publish(lib, ctx, doc, v, nv)), x)} ::
              Get(Versions(Publish(lib, ctx, doc, v, nv)), x) ==
                if x == CleanKey(lib, v) then Some(Record(lib, ctx, doc, nv)) else Get(Versions(doc), x)
  {
    forall x ensures Get(Versions(Publish(lib, ctx, doc, v, nv)), x) ==
                       if x == CleanKey(lib, v) then Some(Record(lib, ctx, doc, nv)) else Get(Versions(doc), x) {
      PublishVersions(lib, ctx, doc, v, nv, x);
    }
  }

  /** What `ok` after a publication leaves of the versions: `p` is the
      published document, `rec` the new record under `v`, `d` the finished
      document. */
  lemma AddedFromFinished(lib: Lib, ctx: Context, doc: Obj, v: string, nv: Json, p: Obj, d: Obj, now: string)
    requires lib.semverClean(v) == Some(v)
    requires Steady(doc, p)
    requires HasVersions(doc) ==> v !in Versions(doc).vals
    requires HasVersions(doc) ==> forall x {:trigger Get(Versions(p), x)} ::
               Get(Versions(p), x) == if x == v then Some(Record(lib, ctx, doc, nv)) else Get(Versions(doc), x)
    requires Finished(p, d, now)
    ensures Steady(doc, d) && Added(lib, ctx, doc, d, v, nv)
  {
    assert KeepsRoot(p, d);
    KeepsRootTrans(doc, p, d);
    if HasVersions(doc) {
      assert Versions(d) == StripRecords(Versions(p), RecordScratch);
      assert Versions(d).vals.Keys == Versions(doc).vals.Keys + {v} by {
        assert forall x :: x in Versions(p).vals <==> Get(Versions(p), x).Some?;
      }
      forall x | x in Versions(doc).vals
        ensures Versions(d).vals[x] == Strip(Versions(doc).vals[x], RecordScratch)
      {
        assert Get(Versions(p), x) == Get(Versions(doc), x);
      }
      assert Get(Versions(p), v) == Some(Record(lib, ctx, doc, nv));
    }
  }

  /** The step `s` for the stored record `ov` under `v`, sent as `nv`, is
      the conflict check's verdict: it stops, with a conflict, exactly when
      `nv` carries no truthy `deprecated` and, once an empty `directories`
      is dropped, is not deep-equal to `ov`; when it goes on, `nv` passes
      against `ov`. */
  ghost predicate ConflictChecked(v: string, ov: Json, nv: Json, s: Step) {
    && (s.Stop? <==> !IsTruthy(Field(nv, "deprecated")) && !DeepEq(DropEmptyDirectories(nv, Some(ov)), ov))
    && (s.Stop? ==> s.reply == Refused(Conflict(v, ov, DropEmptyDirectories(nv, Some(ov)))))
    && (s.Continue? ==> Resent(ov, nv))
  }

  /** Some version among `seen` is new to `doc`: publishing it ran `ok`,
      which deletes the scratch properties of every stored record. */
  ghost predicate Published(doc: Obj, seen: seq<string>) {
    exists k :: k in seen && !IsTruthy(Get(Versions(doc), k))
  }

  /** The stored record `ov` as the loop meets it, after visiting `seen`
      and before visiting its own key. */
  ghost function Reached(doc: Obj, seen: seq<string>, ov: Json): Json {
    if Published(doc, seen) then Strip(ov, RecordScratch) else ov
  }

  /** The record `nv` sent under `v` fails the conflict check against the
      current record `cur`, and `reply` is that conflict: `nv` carries no
      truthy `deprecated` and, once an empty `directories` is dropped, is
      not deep-equal to `cur`. */
  ghost predicate Conflicts(v: string, cur: Json, nv: Json, reply: Reply) {
    var sent := DropEmptyDirectories(nv, Some(cur));
    && !IsTruthy(Field(nv, "deprecated"))
    && !DeepEq(sent, cur)
    && reply == Refused(Conflict(v, cur, sent))
  }

  /** The version `v`, sent as `nv` and visited after the keys `before`,
      ends a merge into `doc` with `reply`: a stored version fails the
      conflict check against its record as the loop meets it, a new one is
      not published. */
  ghost predicate Halts(lib: Lib, ctx: Context, doc: Obj, before: seq<string>, v: string, nv: Json, reply: Reply) {
    if IsTruthy(Get(Versions(doc), v)) then Conflicts(v, Reached(doc, before, Versions(doc).vals[v]), nv, reply)
    else Rejects(lib, ctx, doc, v, nv, reply)
  }

  /** The version `v`, sent as `nv` and visited after the keys `before`,
      does not end a merge into `doc`: a stored version carries a truthy
      `deprecated` or matches its record as the loop meets it; a new one is
      publishable. */
  ghost predicate Passes(lib: Lib, doc: Obj, before: seq<string>, v: string, nv: Json) {
    if IsTruthy(Get(Versions(doc), v)) then
      var cur := Reached(doc, before, Versions(doc).vals[v]);
      IsTruthy(Field(nv, "deprecated")) || DeepEq(DropEmptyDirectories(nv, Some(cur)), cur)
    else Publishable(lib, doc, v, nv)
  }

  /** A version that passes cannot halt the merge. */
  lemma PassesNotHalts(lib: Lib, ctx: Context, doc: Obj, before: seq<string>, v: string, nv: Json, reply: Reply)
    requires Passes(lib, doc, before, v, nv)
    ensures !Halts(lib, ctx, doc, before, v, nv, reply)
  {
  }

  /** Every key of `seen` was sent and passed, each judged after the keys
      before it. */
  ghost predicate Passed(lib: Lib, doc: Obj, sent: Obj, seen: seq<string>) {
    forall j :: 0 <= j < |seen| ==> seen[j] in sent.vals && Passes(lib, doc, seen[..j], seen[j], sent.vals[seen[j]])
  }

  /** What one turn of the loop over `newdoc.versions` does with the
      version `v`, sent as `nv`: a stop is an error that agrees with the
      maintainers; a stored version goes through the conflict check and is
      revised, changing only `versions`; a new one is added when it is
      publishable and rejected otherwise. */
  ghost predicate Visited(lib: Lib, ctx: Context, doc: Obj, v: string, nv: Json, s: Step) {
    && (s.Stop? ==> IsError(s.reply) && OwnersAgree(doc, s.reply))
    && (s.Continue? ==> Truthy(nv) && Steady(doc, s.doc))
    && (s.Continue? && IsTruthy(Get(Versions(doc), v)) ==>
          Revised(doc, s.doc, v, Deprecation(Some(nv))) && SameExcept(doc, s.doc, {"versions"}))
    && (s.Continue? && !IsTruthy(Get(Versions(doc), v)) ==>
          Added(lib, ctx, doc, s.doc, v, nv) && Publishable(lib, doc, v, nv))
    && (s.Stop? && !IsTruthy(Get(Versions(doc), v)) ==> Rejects(lib, ctx, doc, v, nv, s.reply))
    && (IsTruthy(Get(Versions(doc), v)) ==> ConflictChecked(v, Versions(doc).vals[v], nv, s))
  }

  /** One turn of the loop over `newdoc.versions`. */
  method Visit(lib: Lib, ctx: Context, doc: Obj, v: string, nv: Json) returns (s: Step)
    ensures Visited(lib, ctx, doc, v, nv, s)
  {
    var ov := Get(Versions(doc), v);
    if IsTruthy(ov) {
      var sent := DropEmptyDirectories(nv, ov);
      assert Deprecation(Some(sent)) == Deprecation(Some(nv));
      s := Revise(doc, v, sent);
      AgedRefl(ov.value);
      if s.Continue? && !IsTruthy(Field(nv, "deprecated")) {
        assert Aged(ov.value, ov.value, None) && DeepEq(sent, ov.value);
      }
    } else {
      s := AddVersion(lib, ctx, doc, v, nv);
    }
  }

  // ------------------------------------------------------------ the loop

  /** The state of `mergeVersions` after visiting the keys `seen` of the
      sent versions `sent`, from the document `doc` it started with: every
      visited version was sent truthy and is now published, every new key
      is clean, no version appeared from elsewhere, and every stored record
      has only aged, taking the `deprecated` of its visit. */
  ghost predicate Progress(lib: Lib, doc: Obj, sent: Obj, seen: seq<string>, d: Obj) {
    && KeepsRoot(doc, d)
    && HasVersions(d) == ObjectSlot(doc, "versions")
    && (!ObjectSlot(doc, "versions") ==> Get(d, "versions") == Get(doc, "versions"))
    && (forall k :: k in seen ==> IsTruthy(Get(sent, k)))
    && (forall k :: k in seen && k !in Versions(doc).vals ==> lib.semverClean(k) == Some(k))
    && (ObjectSlot(doc, "versions") ==>
          && (forall k :: k in seen ==> IsTruthy(Get(Versions(d), k)))
          && (forall k :: k in Versions(d).vals ==> k in Versions(doc).vals || k in seen)
          && (forall k :: k in Versions(doc).vals ==> k in Versions(d).vals)
          && (forall k :: k in Versions(doc).vals ==>
                Aged(Versions(doc).vals[k], Versions(d).vals[k], if k in seen then Deprecation(Get(sent, k)) else None)))
  }

  /** Before the loop: `doc.versions` defaulted to `{}`. */
  lemma ProgressStart(lib: Lib, ctx: Context, doc: Obj, sent: Obj)
    ensures Merging(lib, ctx, doc, sent, [], Default(doc, "versions"))
  {
    var d := Default(doc, "versions");
    assert KeepsRoot(doc, d) by {
      assert MergeWrites("versions");
    }
    forall k | k in Versions(doc).vals
      ensures Aged(Versions(doc).vals[k], Versions(d).vals[k], None)
    {
      AgedRefl(Versions(doc).vals[k]);
    }
    assert !Published(doc, []);
  }

  /** A record ages into itself. */
  lemma AgedRefl(j: Json)
    ensures Aged(j, j, None)
  {
  }

  /** A visit of a stored version keeps the loop's state. */
  lemma ProgressRevised(lib: Lib, doc: Obj, sent: Obj, seen: seq<string>, d: Obj, v: string, d2: Obj)
    requires Progress(lib, doc, sent, seen, d)
    requires v !in seen && IsTruthy(Get(sent, v)) && IsTruthy(Get(Versions(d), v))
    requires Steady(d, d2) && Revised(d, d2, v, Deprecation(Get(sent, v)))
    ensures Progress(lib, doc, sent, seen + [v], d2)
    ensures v in Versions(doc).vals ==> Aged(Versions(doc).vals[v], Versions(d).vals[v], None)
  {
    KeepsRootTrans(doc, d, d2);
    var seen2 := seen + [v];
    var dep := Deprecation(Get(sent, v));
    var V0 := Versions(doc);
    var V1 := Versions(d);
    var V2 := Versions(d2);
    assert ObjectSlot(doc, "versions");
    forall k | k in seen2 ensures IsTruthy(Get(V2, k)) {
      if k == v {
        AgedTruthy(V1.vals[v], V2.vals[v], dep);
      } else {
        assert V2.vals[k] == V1.vals[k];
      }
    }
    forall k | k in V0.vals
      ensures Aged(V0.vals[k], V2.vals[k], if k in seen2 then Deprecation(Get(sent, k)) else None)
    {
      if k == v {
        AgedTrans(V0.vals[k], V1.vals[k], V2.vals[k], None, dep);
      }
    }
  }

  /** A record `addNewVersion` stores for a truthy body is truthy, with or
      without its scratch properties. */
  lemma RecordTruthy(lib: Lib, ctx: Context, doc: Obj, nv: Json)
    requires Truthy(nv)
    ensures Truthy(Strip(Record(lib, ctx, doc, nv), RecordScratch))
  {
  }

  /** A visit that publishes a new version keeps the loop's state. */
  lemma ProgressAdded(lib: Lib, ctx: Context, doc: Obj, sent: Obj, seen: seq<string>, d: Obj, v: string, d2: Obj)
    requires Progress(lib, doc, sent, seen, d)
    requires v !in seen && v in sent.vals && Truthy(sent.vals[v])
    requires !IsTruthy(Get(Versions(d), v))
    requires Steady(d, d2) && Added(lib, ctx, d, d2, v, sent.vals[v])
    ensures Progress(lib, doc, sent, seen + [v], d2)
    ensures !IsTruthy(Get(Versions(doc), v)) && v !in Versions(doc).vals
  {
    KeepsRootTrans(doc, d, d2);
    var seen2 := seen + [v];
    var V0 := Versions(doc);
    var V1 := Versions(d);
    var V2 := Versions(d2);
    if ObjectSlot(doc, "versions") {
      RecordTruthy(lib, ctx, d, sent.vals[v]);
      forall k | k in seen2 ensures IsTruthy(Get(V2, k)) {
        if k != v {
          AgedStrip(V1.vals[k]);
          AgedTruthy(V1.vals[k], V2.vals[k], None);
        }
      }
      forall k | k in V0.vals
        ensures Aged(V0.vals[k], V2.vals[k], if k in seen2 then Deprecation(Get(sent, k)) else None)
      {
        AgedStrip(V1.vals[k]);
        AgedTrans(V0.vals[k], V1.vals[k], V2.vals[k], if k in seen then Deprecation(Get(sent, k)) else None, None);
      }
    }
  }

  /** Every stored version among the visited keys `seen` was sent back in a
      form that passes the conflict check. */
  ghost predicate ResentSoFar(doc: Obj, sent: Obj, seen: seq<string>) {
    forall k :: k in seen && IsTruthy(Get(Versions(doc), k)) ==>
      IsTruthy(Get(sent, k)) && Resent(Versions(doc).vals[k], Get(sent, k).value)
  }

  /** A visit that passed the conflict check against the current, aged
      record passed it against the stored one. */
  lemma ResentStep(doc: Obj, sent: Obj, seen: seq<string>, v: string, cur: Json)
    requires ResentSoFar(doc, sent, seen)
    requires IsTruthy(Get(sent, v))
    requires IsTruthy(Get(Versions(doc), v)) ==>
               Aged(Versions(doc).vals[v], cur, None) && Resent(cur, Get(sent, v).value)
    ensures ResentSoFar(doc, sent, seen + [v])
  {
    if IsTruthy(Get(Versions(doc), v)) {
      ResentAged(Versions(doc).vals[v], cur, Get(sent, v).value);
    }
  }

  /** The records of the new versions among `seen` are those
      `addNewVersion` stores for the sent ones, without `ok`'s scratch
      properties; and while every visited version is a stored one, the
      root has changed only in `versions`. */
  ghost predicate FreshSoFar(lib: Lib, ctx: Context, doc: Obj, sent: Obj, seen: seq<string>, d: Obj) {
    && (ObjectSlot(doc, "versions") ==>
          forall k :: k in seen && k in sent.vals && k !in Versions(doc).vals ==>
            Get(Versions(d), k) == Some(Strip(Record(lib, ctx, doc, sent.vals[k]), RecordScratch)))
    && ((forall k :: k in seen ==> IsTruthy(Get(Versions(doc), k))) ==> SameExcept(doc, d, {"versions"}))
  }

  /** A visit of a stored version keeps the records of the new versions,
      and a root that changed only in `versions`. */
  lemma FreshRevised(lib: Lib, ctx: Context, doc: Obj, sent: Obj, seen: seq<string>, d: Obj, v: string, d2: Obj)
    requires Progress(lib, doc, sent, seen, d) && FreshSoFar(lib, ctx, doc, sent, seen, d)
    requires v !in seen && IsTruthy(Get(Versions(d), v))
    requires Revised(d, d2, v, Deprecation(Get(sent, v))) && SameExcept(d, d2, {"versions"})
    ensures FreshSoFar(lib, ctx, doc, sent, seen + [v], d2)
  {
    var V0 := Versions(doc);
    if ObjectSlot(doc, "versions") {
      forall k | k in seen + [v] && k in sent.vals && k !in V0.vals
        ensures Get(Versions(d2), k) == Some(Strip(Record(lib, ctx, doc, sent.vals[k]), RecordScratch))
      {
        assert k != v;
      }
    }
    if forall k :: k in seen + [v] ==> IsTruthy(Get(V0, k)) {
      SameExceptTrans(doc, d, d2, {"versions"}, {"versions"});
      assert {"versions"} + {"versions"} == {"versions"};
    }
  }

  /** A visit that publishes a new version keeps the records of the other
      new versions and holds its own. */
  lemma FreshAdded(lib: Lib, ctx: Context, doc: Obj, sent: Obj, seen: seq<string>, d: Obj, v: string, d2: Obj)
    requires Progress(lib, doc, sent, seen, d) && FreshSoFar(lib, ctx, doc, sent, seen, d)
    requires v !in seen && v in sent.vals && !IsTruthy(Get(Versions(d), v))
    requires Added(lib, ctx, d, d2, v, sent.vals[v])
    ensures FreshSoFar(lib, ctx, doc, sent, seen + [v], d2)
  {
    var V0 := Versions(doc);
    var V2 := Versions(d2);
    KeepsOwners(doc, d);
    assert Record(lib, ctx, d, sent.vals[v]) == Record(lib, ctx, doc, sent.vals[v]);
    if ObjectSlot(doc, "versions") {
      assert v !in V0.vals;
      forall k | k in seen + [v] && k in sent.vals && k !in V0.vals
        ensures Get(V2, k) == Some(Strip(Record(lib, ctx, doc, sent.vals[k]), RecordScratch))
      {
        if k != v {
          StripIdem(Record(lib, ctx, doc, sent.vals[k]), RecordScratch);
        }
      }
    } else {
      assert V0 == Empty;
    }
    assert v in seen + [v] && !IsTruthy(Get(V0, v));
  }

  /** Every stored record the loop has not visited yet is as the loop
      meets it (`Reached`). */
  ghost predicate Waiting(doc: Obj, seen: seq<string>, d: Obj) {
    ObjectSlot(doc, "versions") ==>
      forall k :: k in Versions(doc).vals && k !in seen ==>
        Get(Versions(d), k) == Some(Reached(doc, seen, Versions(doc).vals[k]))
  }

  /** A key not yet visited stands in the document the loop has reached as
      it stands in the stored one: present or not, truthy or not, and a
      stored record has only aged. */
  lemma Standing(lib: Lib, doc: Obj, sent: Obj, seen: seq<string>, d: Obj, v: string)
    requires Progress(lib, doc, sent, seen, d) && v !in seen
    ensures IsTruthy(Get(d, "versions"))
    ensures (v in Versions(d).vals) == (v in Versions(doc).vals)
    ensures IsTruthy(Get(Versions(d), v)) == IsTruthy(Get(Versions(doc), v))
    ensures !IsTruthy(Get(doc, "versions")) ==> v !in Versions(d).vals
    ensures IsTruthy(Get(Versions(doc), v)) ==> ObjectSlot(doc, "versions")
  {
    if v in Versions(doc).vals {
      AgedTruthy(Versions(doc).vals[v], Versions(d).vals[v], None);
    }
  }

  /** A visit of a stored version leaves the other records as they were,
      and publishes nothing. */
  lemma WaitingRevised(lib: Lib, doc: Obj, sent: Obj, seen: seq<string>, d: Obj, v: string, d2: Obj)
    requires Progress(lib, doc, sent, seen, d) && Waiting(doc, seen, d)
    requires v !in seen && IsTruthy(Get(Versions(d), v))
    requires Revised(d, d2, v, Deprecation(Get(sent, v)))
    ensures Waiting(doc, seen + [v], d2)
  {
    Standing(lib, doc, sent, seen, d, v);
    assert Published(doc, seen + [v]) == Published(doc, seen) by {
      if Published(doc, seen + [v]) {
        var k :| k in seen + [v] && !IsTruthy(Get(Versions(doc), k));
        assert k in seen;
      }
      if Published(doc, seen) {
        var k :| k in seen && !IsTruthy(Get(Versions(doc), k));
        assert k in seen + [v];
      }
    }
    if ObjectSlot(doc, "versions") {
      forall k | k in Versions(doc).vals && k !in seen + [v]
        ensures Get(Versions(d2), k) == Some(Reached(doc, seen + [v], Versions(doc).vals[k]))
      {
        assert Versions(d2).vals[k] == Versions(d).vals[k];
      }
    }
  }

  /** A visit that publishes a new version has `ok` delete the scratch
      properties of every record the loop has not visited. */
  lemma WaitingAdded(lib: Lib, ctx: Context, doc: Obj, sent: Obj, seen: seq<string>, d: Obj, v: string, nv: Json, d2: Obj)
    requires Progress(lib, doc, sent, seen, d) && Waiting(doc, seen, d)
    requires v !in seen && !IsTruthy(Get(Versions(doc), v))
    requires Added(lib, ctx, d, d2, v, nv)
    ensures Waiting(doc, seen + [v], d2)
  {
    assert Published(doc, seen + [v]) by {
      assert v in seen + [v];
    }
    if ObjectSlot(doc, "versions") {
      forall k | k in Versions(doc).vals && k !in seen + [v]
        ensures Get(Versions(d2), k) == Some(Reached(doc, seen + [v], Versions(doc).vals[k]))
      {
        StripIdem(Versions(doc).vals[k], RecordScratch);
        assert Versions(d2).vals[k] == Strip(Versions(d).vals[k], RecordScratch);
      }
    }
  }

  /** One more key that passed, judged after the keys before it. */
  lemma PassedStep(lib: Lib, doc: Obj, sent: Obj, seen: seq<string>, v: string)
    requires Passed(lib, doc, sent, seen)
    requires v in sent.vals && Passes(lib, doc, seen, v, sent.vals[v])
    ensures Passed(lib, doc, sent, seen + [v])
  {
    var seen2 := seen + [v];
    forall j | 0 <= j < |seen2|
      ensures seen2[j] in sent.vals && Passes(lib, doc, seen2[..j], seen2[j], sent.vals[seen2[j]])
    {
      if j < |seen| {
        assert seen2[..j] == seen[..j] && seen2[j] == seen[j];
      } else {
        assert seen2[..j] == seen;
      }
    }
  }

  /** A stored version that went through the conflict check against the
      record the loop reached passed. */
  lemma PassesRevised(lib: Lib, doc: Obj, sent: Obj, seen: seq<string>, d: Obj, v: string, s: Step)
    requires Progress(lib, doc, sent, seen, d) && Waiting(doc, seen, d)
    requires v !in seen && v in sent.vals && IsTruthy(Get(Versions(d), v))
    requires ConflictChecked(v, Versions(d).vals[v], sent.vals[v], s) && s.Continue?
    ensures Passes(lib, doc, seen, v, sent.vals[v])
  {
    Standing(lib, doc, sent, seen, d, v);
    assert Versions(d).vals[v] == Reached(doc, seen, Versions(doc).vals[v]);
  }

  /** A new version publishable into the document the loop reached is
      publishable into the stored document. */
  lemma PassesAdded(lib: Lib, doc: Obj, sent: Obj, seen: seq<string>, d: Obj, v: string)
    requires Progress(lib, doc, sent, seen, d)
    requires v !in seen && v in sent.vals && !IsTruthy(Get(Versions(d), v))
    requires Publishable(lib, d, v, sent.vals[v])
    ensures Passes(lib, doc, seen, v, sent.vals[v])
  {
    Standing(lib, doc, sent, seen, d, v);
    AcceptsLift(lib, doc, d, v, sent.vals[v]);
  }

  /** The invariant of the loop over the sent versions. */
  ghost predicate Merging(lib: Lib, ctx: Context, doc: Obj, sent: Obj, seen: seq<string>, d: Obj) {
    && Progress(lib, doc, sent, seen, d)
    && ResentSoFar(doc, sent, seen)
    && FreshSoFar(lib, ctx, doc, sent, seen, d)
    && Waiting(doc, seen, d)
    && Passed(lib, doc, sent, seen)
  }

  /** One turn of the loop keeps its invariant. */
  lemma LoopStep(lib: Lib, ctx: Context, doc: Obj, sent: Obj, seen: seq<string>, d: Obj, v: string, s: Step)
    requires Merging(lib, ctx, doc, sent, seen, d)
    requires v !in seen && v in sent.vals
    requires Visited(lib, ctx, d, v, sent.vals[v], s) && s.Continue?
    ensures Merging(lib, ctx, doc, sent, seen + [v], s.doc)
  {
    if IsTruthy(Get(Versions(d), v)) {
      LoopRevised(lib, ctx, doc, sent, seen, d, v, s);
    } else {
      LoopAdded(lib, ctx, doc, sent, seen, d, v, s);
    }
  }

  /** A turn that revises a stored version keeps the loop's invariant. */
  lemma LoopRevised(lib: Lib, ctx: Context, doc: Obj, sent: Obj, seen: seq<string>, d: Obj, v: string, s: Step)
    requires Merging(lib, ctx, doc, sent, seen, d)
    requires v !in seen && v in sent.vals && IsTruthy(Get(Versions(d), v))
    requires Visited(lib, ctx, d, v, sent.vals[v], s) && s.Continue?
    ensures Merging(lib, ctx, doc, sent, seen + [v], s.doc)
  {
    var d2 := s.doc;
    FreshRevised(lib, ctx, doc, sent, seen, d, v, d2);
    ProgressRevised(lib, doc, sent, seen, d, v, d2);
    ResentStep(doc, sent, seen, v, Versions(d).vals[v]);
    WaitingRevised(lib, doc, sent, seen, d, v, d2);
    PassesRevised(lib, doc, sent, seen, d, v, s);
    PassedStep(lib, doc, sent, seen, v);
  }

  /** A turn that publishes a new version keeps the loop's invariant. */
  lemma LoopAdded(lib: Lib, ctx: Context, doc: Obj, sent: Obj, seen: seq<string>, d: Obj, v: string, s: Step)
    requires Merging(lib, ctx, doc, sent, seen, d)
    requires v !in seen && v in sent.vals && !IsTruthy(Get(Versions(d), v))
    requires Visited(lib, ctx, d, v, sent.vals[v], s) && s.Continue?
    ensures Merging(lib, ctx, doc, sent, seen + [v], s.doc)
  {
    var d2 := s.doc;
    FreshAdded(lib, ctx, doc, sent, seen, d, v, d2);
    ProgressAdded(lib, ctx, doc, sent, seen, d, v, d2);
    ResentStep(doc, sent, seen, v, JNull);
    WaitingAdded(lib, ctx, doc, sent, seen, d, v, sent.vals[v], d2);
    PassesAdded(lib, doc, sent, seen, d, v);
    PassedStep(lib, doc, sent, seen, v);
  }

  /** A visit that stops halts the merge against the stored document: a
      stored record is met as `Reached` says, and a new key meets the same
      checks. */
  lemma HaltsLift(lib: Lib, ctx: Context, doc: Obj, sent: Obj, seen: seq<string>, d: Obj, v: string, nv: Json, s: Step)
    requires Progress(lib, doc, sent, seen, d) && Waiting(doc, seen, d) && v !in seen
    requires Visited(lib, ctx, d, v, nv, s) && s.Stop?
    ensures Halts(lib, ctx, doc, seen, v, nv, s.reply)
  {
    Standing(lib, doc, sent, seen, d, v);
    if IsTruthy(Get(Versions(doc), v)) {
      assert Versions(d).vals[v] == Reached(doc, seen, Versions(doc).vals[v]);
    } else if lib.semverClean(v) == Some(v) && v != "" {
      RejectsLift(lib, ctx, doc, d, v, nv, s.reply);
    }
  }

  /** The checks of `addNewVersion` for a clean key read only the name,
      identity, maintainers and versions of the document, so they judge
      alike a document and the one a merge of it has reached. */
  lemma AcceptsLift(lib: Lib, doc: Obj, d: Obj, v: string, nv: Json)
    requires KeepsRoot(doc, d) && IsTruthy(Get(d, "versions"))
    requires (v in Versions(d).vals) == (v in Versions(doc).vals)
    requires !IsTruthy(Get(doc, "versions")) ==> v !in Versions(d).vals
    ensures lib.semverClean(v) == Some(v) && v != "" ==> Accepts(lib, d, v, nv) == Accepts(lib, doc, v, nv)
    ensures Publishable(lib, d, v, nv) == Publishable(lib, doc, v, nv)
  {
    UntouchedApart();
    assert !MergeWrites("name") && !MergeWrites("_id") && !MergeWrites("maintainers");
    if lib.semverClean(v) == Some(v) && v != "" {
      assert CleanKey(lib, v) == v;
      assert Exists(lib, d, v) == Exists(lib, doc, v);
    }
  }

  /** A new clean key is rejected alike by a document and the one a merge
      of it has reached. */
  lemma RejectsLift(lib: Lib, ctx: Context, doc: Obj, d: Obj, v: string, nv: Json, reply: Reply)
    requires lib.semverClean(v) == Some(v) && v != ""
    requires KeepsRoot(doc, d) && IsTruthy(Get(d, "versions"))
    requires (v in Versions(d).vals) == (v in Versions(doc).vals)
    requires !IsTruthy(Get(doc, "versions")) ==> v !in Versions(d).vals
    requires Rejects(lib, ctx, d, v, nv, reply)
    ensures Rejects(lib, ctx, doc, v, nv, reply)
  {
    AcceptsLift(lib, doc, d, v, nv);
    UntouchedApart();
    assert !MergeWrites("name") && !MergeWrites("_id") && !MergeWrites("maintainers");
    assert CleanKey(lib, v) == v;
    assert Exists(lib, d, v) == Exists(lib, doc, v);
  }

  /** A turn of the loop that stops ends the merge with the promised
      outcome: the key it visited is the first that halts. */
  lemma LoopStopped(lib: Lib, ctx: Context, newdoc: Obj, doc: Obj, i: nat, d: Obj, s: Step)
    requires IsTruthy(Get(newdoc, "versions"))
    requires i < |Versions(newdoc).keys| && Versions(newdoc).keys[i] in Versions(newdoc).vals
    requires Versions(newdoc).keys[i] !in Versions(newdoc).keys[..i]
    requires Merging(lib, ctx, doc, Versions(newdoc), Versions(newdoc).keys[..i], d)
    requires Visited(lib, ctx, d, Versions(newdoc).keys[i], Versions(newdoc).vals[Versions(newdoc).keys[i]], s) && s.Stop?
    ensures MergeOutcome(lib, ctx, newdoc, doc, s)
  {
    var ks := Versions(newdoc).keys;
    KeepsOwners(doc, d);
    HaltsLift(lib, ctx, doc, Versions(newdoc), ks[..i], d, ks[i], Versions(newdoc).vals[ks[i]], s);
    assert FirstHalt(lib, ctx, newdoc, doc, i, s.reply);
  }

  /** Once every sent key is visited, the loop's state reads in terms of
      the sent versions. */
  lemma ProgressAll(lib: Lib, doc: Obj, sent: Obj, d: Obj)
    requires WellFormed(sent) && Progress(lib, doc, sent, sent.keys, d) && ObjectSlot(doc, "versions")
    ensures HasVersions(d)
    ensures forall k :: k in sent.vals ==> IsTruthy(Get(sent, k)) && IsTruthy(Get(Versions(d), k))
    ensures forall k :: k in sent.vals && k !in Versions(doc).vals ==> lib.semverClean(k) == Some(k)
    ensures forall k :: k in Versions(d).vals ==> k in Versions(doc).vals || k in sent.vals
    ensures forall k :: k in Versions(doc).vals ==> k in Versions(d).vals
    ensures forall k :: k in Versions(doc).vals ==>
              Aged(Versions(doc).vals[k], Versions(d).vals[k], if k in sent.vals then Deprecation(Get(sent, k)) else None)
  {
  }

  /** Once every sent key is visited, every stored version sent back passed
      the conflict check. */
  lemma ResentAll(doc: Obj, sent: Obj)
    requires WellFormed(sent) && ResentSoFar(doc, sent, sent.keys)
    ensures forall k :: k in sent.vals && IsTruthy(Get(Versions(doc), k)) ==>
              Resent(Versions(doc).vals[k], sent.vals[k])
  {
  }

  /** Once every sent key is visited, the new versions hold the records
      `addNewVersion` stored, and a merge of stored versions only has
      changed nothing but `versions`. */
  lemma FreshAll(lib: Lib, ctx: Context, doc: Obj, sent: Obj, d: Obj)
    requires WellFormed(sent) && FreshSoFar(lib, ctx, doc, sent, sent.keys, d)
    ensures ObjectSlot(doc, "versions") ==>
              forall k :: k in sent.vals && k !in Versions(doc).vals ==>
                Get(Versions(d), k) == Some(Strip(Record(lib, ctx, doc, sent.vals[k]), RecordScratch))
    ensures (forall k :: k in sent.vals ==> IsTruthy(Get(Versions(doc), k))) ==> SameExcept(doc, d, {"versions"})
  {
  }

  // ------------------------------------------------------ mergeVersions

  /** `newdoc._rev === doc._rev`: the client sent the revision it replaces. */
  predicate RevMatch(newdoc: Obj, doc: Obj) {
    StrictEq(Get(newdoc, "_rev"), Get(doc, "_rev"))
  }

  /** The second loop of `mergeVersions`, run on a matching revision:
      `delete doc.versions[v]` for every stored version that is not truthy
      in `sent`. */
  function Prune(doc: Obj, sent: Obj): (r: Obj)
    ensures Steady(doc, r) && SameExcept(doc, r, {"versions"})
    ensures HasVersions(doc) ==>
              forall k :: k in Versions(r).vals <==> k in Versions(doc).vals && IsTruthy(Get(sent, k))
    ensures HasVersions(doc) ==>
              forall k :: k in Versions(r).vals ==> Versions(r).vals[k] == Versions(doc).vals[k]
  {
    if HasVersions(doc) then
      var r := Set(doc, "versions", JObj(RemoveWhere(Versions(doc), k => !IsTruthy(Get(sent, k)))));
      assert KeepsRoot(doc, r) by {
        assert MergeWrites("versions");
      }
      r
    else doc
  }

  /** Every version sent is one the document already has. */
  ghost predicate NoNewKeys(newdoc: Obj, doc: Obj) {
    forall k :: k in Versions(newdoc).vals ==> IsTruthy(Get(Versions(doc), k))
  }

  /** What `mergeVersions(newdoc, doc)` promises. Without truthy
      `newdoc.versions` nothing happens. A stop is an error, and it is the
      reply of the first sent key, in order, that halts the merge
      (`FirstHalt`): a stored one that fails the conflict check against its
      record as the loop meets it, or a new one `addNewVersion` does not
      publish. When the merge goes on, every sent key passed (`Passed`),
      every sent version is published, a new one only
      under its clean key and with the record `addNewVersion` stores, every
      stored version sent back passed the conflict check (`Resent`), no
      version comes from anywhere else, every stored record that remains
      has only aged (taking a truthy `deprecated` it was sent), and stored
      versions the client left out are removed exactly when the revision
      matches; when every sent version is a stored one, no root property
      but `versions` changes. */
  ghost predicate MergeOutcome(lib: Lib, ctx: Context, newdoc: Obj, doc: Obj, m: Step) {
    && (!IsTruthy(Get(newdoc, "versions")) ==> m == Continue(doc))
    && (m.Stop? ==> MergeHalted(lib, ctx, newdoc, doc, m.reply))
    && (m.Continue? ==> MergeWent(lib, ctx, newdoc, doc, m.doc))
  }

  /** A merge that stops: see `MergeOutcome`. */
  ghost predicate MergeHalted(lib: Lib, ctx: Context, newdoc: Obj, doc: Obj, reply: Reply) {
    && IsError(reply)
    && OwnersAgree(doc, reply)
    && exists i :: FirstHalt(lib, ctx, newdoc, doc, i, reply)
  }

  /** The `i`-th sent key is the first to halt the merge, with `reply`:
      every key before it passed. */
  ghost predicate FirstHalt(lib: Lib, ctx: Context, newdoc: Obj, doc: Obj, i: int, reply: Reply) {
    var sent := Versions(newdoc);
    && 0 <= i < |sent.keys| && sent.keys[i] in sent.vals
    && Passed(lib, doc, sent, sent.keys[..i])
    && Halts(lib, ctx, doc, sent.keys[..i], sent.keys[i], sent.vals[sent.keys[i]], reply)
  }

  /** A merge that goes on with `d`: see `MergeOutcome`. */
  ghost predicate MergeWent(lib: Lib, ctx: Context, newdoc: Obj, doc: Obj, d: Obj) {
    && KeepsRoot(doc, d)
    && (NoNewKeys(newdoc, doc) ==> SameExcept(doc, d, {"versions"}))
    && (!ObjectSlot(doc, "versions") ==> Get(d, "versions") == Get(doc, "versions"))
    && (IsTruthy(Get(newdoc, "versions")) ==> Passed(lib, doc, Versions(newdoc), Versions(newdoc).keys))
    && (IsTruthy(Get(newdoc, "versions")) && ObjectSlot(doc, "versions") ==>
          VersionsMerged(lib, ctx, newdoc, doc, d))
  }

  /** The versions of `d` are those of `doc` with the versions of `newdoc`
      merged in: see `MergeOutcome`. */
  ghost predicate VersionsMerged(lib: Lib, ctx: Context, newdoc: Obj, doc: Obj, d: Obj) {
    var sent := Versions(newdoc);
    var stored := Versions(doc);
    && HasVersions(d)
    && (forall k :: k in sent.vals ==> IsTruthy(Get(Versions(d), k)))
    && (forall k :: k in sent.vals && k !in stored.vals ==> lib.semverClean(k) == Some(k))
    && (forall k :: k in sent.vals && k !in stored.vals ==>
          Get(Versions(d), k) == Some(Strip(Record(lib, ctx, doc, sent.vals[k]), RecordScratch)))
    && (forall k :: k in sent.vals && IsTruthy(Get(stored, k)) ==> Resent(stored.vals[k], sent.vals[k]))
    && (forall k :: k in Versions(d).vals ==> k in stored.vals || k in sent.vals)
    && (forall k :: k in stored.vals && k in Versions(d).vals ==>
          Aged(stored.vals[k], Versions(d).vals[k], if k in sent.vals then Deprecation(Get(sent, k)) else None))
    && (!RevMatch(newdoc, doc) ==> forall k :: k in stored.vals ==> k in Versions(d).vals)
    && (RevMatch(newdoc, doc) ==> forall k :: k in Versions(d).vals <==> k in sent.vals)
  }

  /** `ok` deleting scratch properties keeps a merge's outcome. */
  lemma VersionsMergedStrip(lib: Lib, ctx: Context, newdoc: Obj, doc: Obj, d: Obj, f: Obj)
    requires VersionsMerged(lib, ctx, newdoc, doc, d)
    requires HasVersions(f) && Versions(f) == StripRecords(Versions(d), RecordScratch)
    ensures VersionsMerged(lib, ctx, newdoc, doc, f)
  {
    var sent := Versions(newdoc);
    forall k | k in sent.vals ensures IsTruthy(Get(Versions(f), k)) {
      AgedStrip(Versions(d).vals[k]);
      AgedTruthy(Versions(d).vals[k], Versions(f).vals[k], None);
    }
    forall k | k in sent.vals && k !in Versions(doc).vals
      ensures Get(Versions(f), k) == Some(Strip(Record(lib, ctx, doc, sent.vals[k]), RecordScratch))
    {
      StripIdem(Record(lib, ctx, doc, sent.vals[k]), RecordScratch);
    }
    forall k | k in Versions(doc).vals && k in Versions(f).vals
      ensures Aged(Versions(doc).vals[k], Versions(f).vals[k], if k in sent.vals then Deprecation(Get(sent, k)) else None)
    {
      AgedStrip(Versions(d).vals[k]);
      AgedTrans(Versions(doc).vals[k], Versions(d).vals[k], Versions(f).vals[k],
                if k in sent.vals then Deprecation(Get(sent, k)) else None, None);
    }
  }

  /** Without versions in the body the merge changes nothing. */
  lemma MergeNothing(lib: Lib, ctx: Context, newdoc: Obj, doc: Obj)
    requires !IsTruthy(Get(newdoc, "versions"))
    ensures MergeOutcome(lib, ctx, newdoc, doc, Continue(doc))
  {
  }

  /** After the loop and the pruning, the merge has the promised outcome. */
  lemma MergeDone(lib: Lib, ctx: Context, newdoc: Obj, doc: Obj, d: Obj, r: Obj)
    requires WellFormed(Versions(newdoc)) && IsTruthy(Get(newdoc, "versions"))
    requires Merging(lib, ctx, doc, Versions(newdoc), Versions(newdoc).keys, d)
    requires r == if RevMatch(newdoc, doc) then Prune(d, Versions(newdoc)) else d
    ensures MergeOutcome(lib, ctx, newdoc, doc, Continue(r))
  {
    var sent := Versions(newdoc);
    KeepsRootTrans(doc, d, r);
    ResentAll(doc, sent);
    FreshAll(lib, ctx, doc, sent, d);
    if NoNewKeys(newdoc, doc) {
      SameExceptTrans(doc, d, r, {"versions"}, {"versions"});
      assert {"versions"} + {"versions"} == {"versions"};
    }
    if ObjectSlot(doc, "versions") {
      ProgressAll(lib, doc, sent, d);
      if RevMatch(newdoc, doc) {
        MergePruned(lib, newdoc, doc, d, r);
      }
    }
  }

  /** With a matching revision, the pruned versions are the merged ones. */
  lemma MergePruned(lib: Lib, newdoc: Obj, doc: Obj, d: Obj, r: Obj)
    requires HasVersions(d) && r == Prune(d, Versions(newdoc))
    requires forall k :: k in Versions(newdoc).vals ==> IsTruthy(Get(Versions(newdoc), k))
    requires forall k :: k in Versions(newdoc).vals ==> IsTruthy(Get(Versions(d), k))
    requires forall k :: k in Versions(d).vals ==> k in Versions(doc).vals || k in Versions(newdoc).vals
    requires forall k :: k in Versions(doc).vals ==> k in Versions(d).vals
    requires forall k :: k in Versions(doc).vals ==>
               Aged(Versions(doc).vals[k], Versions(d).vals[k],
                    if k in Versions(newdoc).vals then Deprecation(Get(Versions(newdoc), k)) else None)
    ensures HasVersions(r)
    ensures forall k :: k in Versions(newdoc).vals ==> Get(Versions(r), k) == Get(Versions(d), k)
    ensures forall k :: k in Versions(r).vals ==> k in Versions(doc).vals || k in Versions(newdoc).vals
    ensures forall k :: k in Versions(doc).vals && k in Versions(r).vals ==>
              Aged(Versions(doc).vals[k], Versions(r).vals[k],
                   if k in Versions(newdoc).vals then Deprecation(Get(Versions(newdoc), k)) else None)
    ensures forall k :: k in Versions(r).vals <==> k in Versions(newdoc).vals
  {
    var sent := Versions(newdoc);
    forall k | k in Versions(doc).vals && k in Versions(r).vals
      ensures Aged(Versions(doc).vals[k], Versions(r).vals[k], if k in sent.vals then Deprecation(Get(sent, k)) else None)
    {
      assert Versions(r).vals[k] == Versions(d).vals[k];
    }
  }

  // ------------------------------------------- when the merge goes on

  /** With versions in the body, the merge goes on exactly when every
      sent key passes, each judged after the keys before it. */
  lemma MergeGoesOn(lib: Lib, ctx: Context, newdoc: Obj, doc: Obj, m: Step)
    requires MergeOutcome(lib, ctx, newdoc, doc, m) && IsTruthy(Get(newdoc, "versions"))
    ensures m.Continue? <==> Passed(lib, doc, Versions(newdoc), Versions(newdoc).keys)
  {
    var sent := Versions(newdoc);
    if m.Stop? && Passed(lib, doc, sent, sent.keys) {
      var i :| FirstHalt(lib, ctx, newdoc, doc, i, m.reply);
      assert Passes(lib, doc, sent.keys[..i], sent.keys[i], sent.vals[sent.keys[i]]);
      PassesNotHalts(lib, ctx, doc, sent.keys[..i], sent.keys[i], sent.vals[sent.keys[i]], m.reply);
    }
  }

  /** A merge that goes on published every new version: `addNewVersion`
      accepted it, and the document has maintainers and an ordinary `_id`. */
  lemma MergeAccepted(lib: Lib, ctx: Context, newdoc: Obj, doc: Obj, m: Step)
    requires MergeOutcome(lib, ctx, newdoc, doc, m) && m.Continue?
    requires WellFormed(Versions(newdoc))
    ensures forall k :: k in Versions(newdoc).vals && !IsTruthy(Get(Versions(doc), k)) ==>
              Publishable(lib, doc, k, Versions(newdoc).vals[k])
  {
    var sent := Versions(newdoc);
    if IsTruthy(Get(newdoc, "versions")) {
      forall k | k in sent.vals && !IsTruthy(Get(Versions(doc), k))
        ensures Publishable(lib, doc, k, sent.vals[k])
      {
        assert k in sent.keys;
        var j :| 0 <= j < |sent.keys| && sent.keys[j] == k;
        assert Passes(lib, doc, sent.keys[..j], k, sent.vals[k]);
      }
    }
  }

  /** A stored record sent back as it is, before any publication, passes. */
  lemma ResendPasses(lib: Lib, doc: Obj, before: seq<string>, v: string)
    requires IsTruthy(Get(Versions(doc), v)) && !Published(doc, before)
    ensures Passes(lib, doc, before, v, Versions(doc).vals[v])
  {
    var ov := Versions(doc).vals[v];
    assert DropEmptyDirectories(ov, Some(ov)) == ov;
    DeepEqReflexive(ov);
  }

  /** Sending the stored versions back as they are, when every record is
      truthy, never halts the merge, and no root property but `versions`
      changes. */
  lemma ResendAll(lib: Lib, ctx: Context, newdoc: Obj, doc: Obj, m: Step)
    requires MergeOutcome(lib, ctx, newdoc, doc, m)
    requires Get(newdoc, "versions") == Get(doc, "versions") && WellFormed(Versions(doc))
    requires forall k :: k in Versions(doc).vals ==> Truthy(Versions(doc).vals[k])
    ensures m.Continue? && SameExcept(doc, m.doc, {"versions"})
  {
    var sent := Versions(newdoc);
    if IsTruthy(Get(newdoc, "versions")) {
      forall j | 0 <= j < |sent.keys|
        ensures sent.keys[j] in sent.vals && Passes(lib, doc, sent.keys[..j], sent.keys[j], sent.vals[sent.keys[j]])
      {
        assert sent.keys[j] in sent.vals;
        assert !Published(doc, sent.keys[..j]);
        ResendPasses(lib, doc, sent.keys[..j], sent.keys[j]);
      }
      MergeGoesOn(lib, ctx, newdoc, doc, m);
    }
  }
}

/**
 The loop of `mergeVersions`: each sent version visited in order, then the
 pruning, with the outcome `Merge.MergeOutcome` describes.
 */
module MergeLoop {
  import opened Json
  import opened Protocol
  import opened Legacy
  import opened Merge

  /** `mergeVersions(newdoc, doc)`. The sent versions object is taken as
      parsed: each key in its order once, with a value. */
  method MergeVersions(lib: Lib, ctx: Context, newdoc: Obj, doc: Obj) returns (m: Step)
    requires WellFormed(Versions(newdoc))
    ensures MergeOutcome(lib, ctx, newdoc, doc, m)
  {
    if !IsTruthy(Get(newdoc, "versions")) {
      MergeNothing(lib, ctx, newdoc, doc);
      return Continue(doc);
    }
    ProgressStart(lib, ctx, doc, Versions(newdoc));
    m := VisitFrom(lib, ctx, newdoc, doc, 0, Default(doc, "versions"));
  }

  /** The loop `for (var v in newdoc.versions)` from its `i`-th key on, with
      the document `d` it has reached, followed by the pruning. */
  method VisitFrom(lib: Lib, ctx: Context, newdoc: Obj, doc: Obj, i: nat, d: Obj) returns (m: Step)
    requires WellFormed(Versions(newdoc)) && IsTruthy(Get(newdoc, "versions"))
    requires i <= |Versions(newdoc).keys|
    requires Merging(lib, ctx, doc, Versions(newdoc), Versions(newdoc).keys[..i], d)
    ensures MergeOutcome(lib, ctx, newdoc, doc, m)
    decreases |Versions(newdoc).keys| - i
  {
    var ks := Versions(newdoc).keys;
    if i == |ks| {
      AllKeys(ks);
      var r := if RevMatch(newdoc, doc) then Prune(d, Versions(newdoc)) else d;
      MergeDone(lib, ctx, newdoc, doc, d, r);
      return Continue(r);
    }
    NextKey(ks, i);
    var s := Turn(lib, ctx, newdoc, doc, i, d);
    if s.Stop? {
      return s;
    }
    m := VisitFrom(lib, ctx, newdoc, doc, i + 1, s.doc);
  }

  /** One turn of the loop over `newdoc.versions`, on its `i`-th key, from
      the document `d` the loop has reached. */
  method Turn(lib: Lib, ctx: Context, newdoc: Obj, doc: Obj, i: nat, d: Obj) returns (s: Step)
    requires IsTruthy(Get(newdoc, "versions"))
    requires i < |Versions(newdoc).keys| && Versions(newdoc).keys[i] in Versions(newdoc).vals
    requires Versions(newdoc).keys[i] !in Versions(newdoc).keys[..i]
    requires Merging(lib, ctx, doc, Versions(newdoc), Versions(newdoc).keys[..i], d)
    ensures s.Stop? ==> MergeOutcome(lib, ctx, newdoc, doc, s)
    ensures s.Continue? ==>
              Merging(lib, ctx, doc, Versions(newdoc), Versions(newdoc).keys[..i] + [Versions(newdoc).keys[i]], s.doc)
  {
    var ks := Versions(newdoc).keys;
    s := Visit(lib, ctx, d, ks[i], Versions(newdoc).vals[ks[i]]);
    if s.Stop? {
      LoopStopped(lib, ctx, newdoc, doc, i, d, s);
    } else {
      LoopStep(lib, ctx, doc, Versions(newdoc), ks[..i], d, ks[i], s);
    }
  }

  /** The keys before the last one are all of them. */
  lemma AllKeys(ks: seq<string>)
    ensures ks[..|ks|] == ks
  {
  }

  /** The key after the first `i` is not among them, and extends them. */
  lemma NextKey(ks: seq<string>, i: nat)
    requires Distinct(ks) && i < |ks|
    ensures ks[i] !in ks[..i]
    ensures ks[..i + 1] == ks[..i] + [ks[i]]
  {
    assert forall j :: 0 <= j < i ==> ks[j] != ks[i];
  }
}

=== FILE: protocol.dfy ===
/**
 What the package update handler receives and returns, and the shapes of the
 stored document it relies on.

 The handler returns a pair: the document to write and a message. Every path
 ends either in `Saved(doc, note)`, which stands for `[doc, {"ok": note}]`,
 or in `Refused(reason)`, which stands for an error marker whose document
 `{_id: ".error.", forbidden: ...}` the host's validation refuses to store.
 The message of that pair is the string `{"forbidden": reason}` for every
 reason but `MethodNotAllowed`, where `updates.delete` answers with the
 object `{error: "method not allowed"}`, not stringified.
 */
module Protocol {
  import opened Json

  /** The library functions the handler calls and that are not part of this
      model: `semver.valid(v, loose)`, `semver.clean(v, true)` (the handler
      always cleans loosely) and the `valid` package's `valid.name`. */
  datatype Lib = Lib(
    semverValid: (string, bool) -> bool,
    semverClean: string -> Option<string>,
    validName: Option<Json> -> bool)

  /** `semver.clean(x, true)` on a property read; a value that is not a
      string cleans to null. */
  function CleanValue(lib: Lib, o: Option<Json>): (r: Option<string>)
    ensures r.Some? ==> o.Some? && o.value.JStr? && r == lib.semverClean(o.value.s)
  {
    if o.Some? && o.value.JStr? then lib.semverClean(o.value.s) else None
  }

  /** A cleaned version as the handler stores it: the string, or null. */
  function VersionValue(c: Option<string>): Json {
    if c.Some? then JStr(c.value) else JNull
  }

  /** The query string of the request; each parameter is absent or a string. */
  datatype Query = Query(version: Option<string>, tag: Option<string>, pre: Option<string>)

  /** Truthiness of a query parameter. */
  predicate Given(q: Option<string>) {
    q.Some? && q.value != ""
  }

  /** The request apart from its body: query, the authenticated user's name
      (`req.userCtx.name`) and the time every clock read of this invocation
      returns (`new Date().toISOString()`). */
  datatype Context = Context(query: Query, user: string, now: string)

  /** Why a write is refused; one constructor per `error(...)` call site. */
  datatype Reason =
    | MethodNotAllowed                                     // delete: a method other than DELETE
    | NoMaintainers(doc: Json)                             // ok(): "no maintainers?"
    | InvalidVersionKey(key: string)                       // newDoc: a key semver rejects
    | VersionMismatch(key: string, found: Option<Json>)    // newDoc: record.version !== key
    | InvalidName(name: Option<Json>)                      // newDoc, addNewVersion
    | TagToInvalidVersion(tag: string, ver: string)        // addTag
    | TagToUnknownVersion(tag: string, ver: string)        // addTag
    | NotAnObject(target: Option<string>)                  // addNewVersion: body is not an object
    | InvalidVersion(ver: string)                          // addNewVersion: semver rejects ver
    | ExistingVersion                                      // addNewVersion: ver already published
    | VersionDisagrees(sentVersion: Json, requested: Json) // addNewVersion: cleaned versions differ
    | UncleanVersionKey(key: string)                       // mergeVersions: key is not its clean form
    | Conflict(key: string, stored: Json, sent: Json)      // mergeVersions: published record changed

  /** The `ok` message of a successful write: "deleted", "created new entry",
      "updated tag", "added version" or "updated package". */
  datatype Note = Deleted | Created | TagUpdated | VersionAdded | PackageUpdated

  datatype Reply = Saved(doc: Obj, note: Note) | Refused(reason: Reason)

  /** `error(reason)`: the marker reply. */
  function Error(reason: Reason): (r: Reply)
    ensures IsError(r) && r.Refused? && r.reason == reason
  {
    Refused(reason)
  }

  /** `isError(res)`: the result's document carries the `.error.` id. A
      saved document whose own `_id` is ".error." is taken for an error too. */
  predicate IsError(r: Reply) {
    r.Refused? || Get(r.doc, "_id") == Some(JStr(".error."))
  }

  /** After `o[k] = o[k] || {}`, writes into `o[k]` land: the property is
      absent, falsy or an object. A truthy primitive or an array swallows them. */
  predicate ObjectSlot(o: Obj, k: string) {
    !IsTruthy(Get(o, k)) || Get(o, k).value.JObj?
  }

  /** `doc[slot][k] = v`. It lands when `doc[slot]` is an object; a
      primitive or an array swallows it, and so does a missing slot, where
      JavaScript throws. */
  function SetIn(doc: Obj, slot: string, k: string, v: Json): (r: Obj)
    ensures forall x {:trigger Get(r, x)} :: x != slot ==> Get(r, x) == Get(doc, x)
    ensures ObjectSlot(doc, slot) <==> ObjectSlot(r, slot)
    ensures Get(doc, slot).Some? && Get(doc, slot).value.JObj? ==>
              && Get(r, slot).Some? && Get(r, slot).value.JObj?
              && forall x {:trigger Get(EntriesOf(Get(r, slot)), x)} ::
                   Get(EntriesOf(Get(r, slot)), x) == if x == k then Some(v) else Get(EntriesOf(Get(doc, slot)), x)
    ensures !(Get(doc, slot).Some? && Get(doc, slot).value.JObj?) ==> r == doc
  {
    var s := Get(doc, slot);
    if s.Some? && s.value.JObj? then Set(doc, slot, JObj(Set(s.value.obj, k, v))) else doc
  }

  /** `if (!doc[slot]) doc[slot] = {}`. */
  function Default(doc: Obj, slot: string): (r: Obj)
    ensures forall x {:trigger Get(r, x)} :: x != slot ==> Get(r, x) == Get(doc, x)
    ensures Get(r, slot) == if IsTruthy(Get(doc, slot)) then Get(doc, slot) else Some(JObj(Empty))
  {
    if IsTruthy(Get(doc, slot)) then doc else Set(doc, slot, JObj(Empty))
  }

  /** `o[k] = x` where `x` is a property read: `undefined` is written as a
      property that serialises to nothing, so it reads as a deletion. */
  function SetOpt(o: Obj, k: string, x: Option<Json>): (r: Obj)
    ensures Get(r, k) == x
    ensures forall y {:trigger Get(r, y)} :: y != k ==> Get(r, y) == Get(o, y)
    ensures WellFormed(o) ==> WellFormed(r)
  {
    if x.Some? then Set(o, k, x.value) else Remove(o, k)
  }

  /** The entries of `doc.versions`. */
  function Versions(doc: Obj): Obj {
    EntriesOf(Get(doc, "versions"))
  }

  /** The entries of `doc["dist-tags"]`. */
  function DistTags(doc: Obj): Obj {
    EntriesOf(Get(doc, "dist-tags"))
  }

  /** The entries of `doc.time`. */
  function Time(doc: Obj): Obj {
    EntriesOf(Get(doc, "time"))
  }

  /** `doc.versions` holds an object. */
  predicate HasVersions(doc: Obj) {
    Get(doc, "versions").Some? && Get(doc, "versions").value.JObj?
  }

  /** `doc["dist-tags"]` holds an object. */
  predicate HasDistTags(doc: Obj) {
    Get(doc, "dist-tags").Some? && Get(doc, "dist-tags").value.JObj?
  }

  /** `doc['dist-tags'].latest`, read only when `dist-tags` is truthy. */
  function LatestTag(doc: Obj): Option<Json> {
    var t := Get(doc, "dist-tags");
    if IsTruthy(t) then Field(t.value, "latest") else None
  }
}

=== FILE: unpublish.dfy ===
/**
 `updates.delete(doc, req)`: the unpublish handler. Only a DELETE request
 gets through; it replaces the stored document with a tombstone that keeps
 the identity, the revision and the time stamps, and marks the time with who
 unpublished the package and when.
 */
module Unpublish {
  import opened Json
  import opened Protocol
  import opened Update

  /** `{name: user, time: now}`, the mark left in `time.unpublished`. */
  function Mark(user: string, now: string): Json {
    JObj(Obj(["name", "time"], map["name" := JStr(user), "time" := JStr(now)]))
  }

  /** `doc.time || {}` with the mark set on it: every stored entry stays
      and `unpublished` is the mark when the stored `time` is an object or
      unset; a truthy primitive or an array keeps the mark out of what is
      written. */
  function MarkedTime(doc: Obj, user: string, now: string): (t: Json)
    ensures ObjectSlot(doc, "time") ==>
              && t.JObj?
              && forall k {:trigger Get(t.obj, k)} ::
                   Get(t.obj, k) == if k == "unpublished" then Some(Mark(user, now)) else Get(Time(doc), k)
    ensures !ObjectSlot(doc, "time") ==> Some(t) == Get(doc, "time")
  {
    var t := OrElse(Get(doc, "time"), JObj(Empty));
    if t.JObj? then JObj(Set(t.obj, "unpublished", Mark(user, now))) else t
  }

  /** The properties a tombstone can have. */
  const TombstoneKeys: set<string> := {"_id", "_rev", "name", "time"}

  /** The document a DELETE writes: the stored `_id` and `_rev`, the
      stored `_id` as its `name`, and the marked time, and nothing else; an
      `_id` or `_rev` the stored document lacks is left out. */
  function Tombstone(doc: Obj, user: string, now: string): (t: Obj)
    ensures WellFormed(t)
    ensures Get(t, "_id") == Get(doc, "_id")
    ensures Get(t, "_rev") == Get(doc, "_rev")
    ensures Get(t, "name") == Get(doc, "_id")
    ensures Get(t, "time") == Some(MarkedTime(doc, user, now))
    ensures forall k {:trigger Get(t, k)} :: k !in TombstoneKeys ==> Get(t, k) == None
  {
    var d1 := SetOpt(Empty, "_id", Get(doc, "_id"));
    var d2 := SetOpt(d1, "_rev", Get(doc, "_rev"));
    var d3 := SetOpt(d2, "name", Get(doc, "_id"));
    assert WellFormed(Empty);
    Set(d3, "time", MarkedTime(doc, user, now))
  }

  /** `updates.delete(doc, req)` for the request method `verb`, requester
      `user` and clock reading `now`: anything but DELETE is refused, and a
      DELETE saves the tombstone as "deleted". */
  function Delete(verb: string, doc: Obj, user: string, now: string): (r: Reply)
    ensures verb != "DELETE" <==> r == Refused(MethodNotAllowed)
    ensures verb == "DELETE" ==> r.Saved? && r.note == Deleted && r.doc == Tombstone(doc, user, now)
  {
    if verb != "DELETE" then Error(MethodNotAllowed) else Saved(Tombstone(doc, user, now), Deleted)
  }

  /** A package unpublished from an object `time` reads as unpublished, and
      a whole-document update over the tombstone takes the tombstone's
      revision, which is the one the package had when it was unpublished,
      whatever revision the body carries. */
  lemma RepublishTakesRevision(doc: Obj, user: string, now: string, newdoc: Obj)
    requires ObjectSlot(doc, "time")
    ensures Unpublished(Delete("DELETE", doc, user, now).doc)
    ensures Get(Sent(newdoc, Delete("DELETE", doc, user, now).doc), "_rev") == Get(doc, "_rev")
  {
    var t := Delete("DELETE", doc, user, now).doc;
    TombstoneUnpublished(doc, user, now);
    assert Get(Sent(newdoc, t), "_rev") == Get(t, "_rev");
  }

  /** The tombstone of a package with an object or unset `time` carries the
      mark. */
  lemma TombstoneUnpublished(doc: Obj, user: string, now: string)
    requires ObjectSlot(doc, "time")
    ensures Unpublished(Tombstone(doc, user, now))
  {
    var m := MarkedTime(doc, user, now);
    assert Get(m.obj, "unpublished") == Some(Mark(user, now));
  }
}

=== FILE: update.dfy ===
/**
 `updateDoc(newdoc, doc)`: a PUT of a whole document over a stored package.
 An unpublished package takes the body over at the stored revision. Every
 string-valued property of the body is copied onto the stored document; the
 maintainers are replaced only when the revisions agree; the tags are
 replaced when sent; then the versions, the requester's star and the inline
 attachments are merged in, and the document is finalised.
 */
module Update {
  import opened Json
  import opened Protocol
  import opened Finalize
  import opened Merge
  import opened MergeLoop

  /** `doc.time && doc.time.unpublished`: the package was unpublished. */
  predicate Unpublished(doc: Obj) {
    IsTruthy(Get(doc, "time")) && IsTruthy(Prop(Get(doc, "time"), "unpublished"))
  }

  /** The body after the unpublished check: on an unpublished package it
      carries the stored revision, whatever revision it was sent with. */
  function Sent(newdoc: Obj, doc: Obj): (nd: Obj)
    ensures Unpublished(doc) ==> Get(nd, "_rev") == Get(doc, "_rev")
    ensures !Unpublished(doc) ==> nd == newdoc
    ensures forall k {:trigger Get(nd, k)} :: k != "_rev" ==> Get(nd, k) == Get(newdoc, k)
    ensures WellFormed(newdoc) ==> WellFormed(nd)
  {
    if Unpublished(doc) then SetOpt(newdoc, "_rev", Get(doc, "_rev")) else newdoc
  }

  /** The stored document after the unpublished check: the `unpublished`
      mark is deleted from `time` and nothing else changes. */
  function Revived(doc: Obj): (d: Obj)
    ensures Unpublished(doc) ==>
              && Get(d, "time").Some? && Get(d, "time").value.JObj?
              && forall k {:trigger Get(Time(d), k)} ::
                   Get(Time(d), k) == if k == "unpublished" then None else Get(Time(doc), k)
    ensures !Unpublished(doc) ==> d == doc
    ensures forall k {:trigger Get(d, k)} :: k != "time" ==> Get(d, k) == Get(doc, k)
  {
    if Unpublished(doc) then Set(doc, "time", JObj(Remove(Time(doc), "unpublished"))) else doc
  }

  /** `typeof x === "string"`. */
  predicate IsString(x: Option<Json>) {
    x.Some? && x.value.JStr?
  }

  /** The loop `if (typeof src[i] === "string") doc[i] = src[i]` over the
      keys `keys`: exactly the string-valued properties among them are
      copied. */
  function CopyStrings(src: Obj, keys: seq<string>, doc: Obj): (r: Obj)
    ensures forall k {:trigger Get(r, k)} ::
              Get(r, k) == if k in keys && IsString(Get(src, k)) then Get(src, k) else Get(doc, k)
    decreases |keys|
  {
    if |keys| == 0 then doc
    else
      var x := Get(src, keys[0]);
      var d := if IsString(x) then Set(doc, keys[0], x.value) else doc;
      assert forall k :: k in keys <==> k == keys[0] || k in keys[1..];
      CopyStrings(src, keys[1..], d)
  }

  /** The stored document once the body's strings are copied onto it. */
  function Copied(newdoc: Obj, doc: Obj): Obj {
    var nd := Sent(newdoc, doc);
    CopyStrings(nd, nd.keys, Revived(doc))
  }

  /** `newdoc.maintainers && newdoc._rev === doc._rev`, read after the copy. */
  predicate OwnersGate(newdoc: Obj, doc: Obj) {
    var nd := Sent(newdoc, doc);
    IsTruthy(Get(nd, "maintainers")) && RevMatch(nd, Copied(newdoc, doc))
  }

  /** The copied document after `doc.maintainers = newdoc.maintainers`
      behind the gate. */
  function Owned(newdoc: Obj, doc: Obj): (r: Obj)
    ensures Get(r, "maintainers") ==
              if OwnersGate(newdoc, doc) then Get(newdoc, "maintainers") else Get(Copied(newdoc, doc), "maintainers")
    ensures forall k {:trigger Get(r, k)} :: k != "maintainers" ==> Get(r, k) == Get(Copied(newdoc, doc), k)
  {
    var nd := Sent(newdoc, doc);
    if OwnersGate(newdoc, doc) then Set(Copied(newdoc, doc), "maintainers", Get(nd, "maintainers").value)
    else Copied(newdoc, doc)
  }

  /** The stored document as `updateDoc` hands it to `mergeVersions`. */
  function Prepared(newdoc: Obj, doc: Obj): (r: Obj)
    ensures Get(r, "dist-tags") ==
              if IsTruthy(Get(newdoc, "dist-tags")) then Get(newdoc, "dist-tags") else Get(Owned(newdoc, doc), "dist-tags")
    ensures forall k {:trigger Get(r, k)} :: k != "dist-tags" ==> Get(r, k) == Get(Owned(newdoc, doc), k)
  {
    var nd := Sent(newdoc, doc);
    if IsTruthy(Get(nd, "dist-tags")) then Set(Owned(newdoc, doc), "dist-tags", Get(nd, "dist-tags").value)
    else Owned(newdoc, doc)
  }

  /** Every property other than `maintainers` and `dist-tags` is the body's
      when the body sent a string there, and the stored one otherwise. */
  lemma PreparedCopies(newdoc: Obj, doc: Obj, k: string)
    requires WellFormed(newdoc)
    requires k != "maintainers" && k != "dist-tags"
    ensures Get(Prepared(newdoc, doc), k) ==
              if IsString(Get(Sent(newdoc, doc), k)) then Get(Sent(newdoc, doc), k) else Get(Revived(doc), k)
  {
    var nd := Sent(newdoc, doc);
    assert k in nd.keys <==> k in nd.vals;
    assert Get(Prepared(newdoc, doc), k) == Get(Copied(newdoc, doc), k);
  }

  /** The maintainers are the body's when the gate is open, the stored ones
      when the body sent none or the revisions differ, and, since strings
      are copied before the gate, a string the body sent otherwise. */
  lemma PreparedOwners(newdoc: Obj, doc: Obj)
    requires WellFormed(newdoc)
    ensures Get(Prepared(newdoc, doc), "maintainers") ==
              if OwnersGate(newdoc, doc) || IsString(Get(newdoc, "maintainers")) then Get(newdoc, "maintainers")
              else Get(doc, "maintainers")
  {
    var nd := Sent(newdoc, doc);
    assert "maintainers" in nd.keys <==> "maintainers" in nd.vals;
    assert Get(Prepared(newdoc, doc), "maintainers") == Get(Owned(newdoc, doc), "maintainers");
  }

  /** The tags are the body's when it sent truthy ones or a string. */
  lemma PreparedTags(newdoc: Obj, doc: Obj)
    requires WellFormed(newdoc)
    ensures Get(Prepared(newdoc, doc), "dist-tags") ==
              if IsTruthy(Get(newdoc, "dist-tags")) || IsString(Get(newdoc, "dist-tags")) then Get(newdoc, "dist-tags")
              else Get(doc, "dist-tags")
  {
    var nd := Sent(newdoc, doc);
    assert "dist-tags" in nd.keys <==> "dist-tags" in nd.vals;
    assert Get(Owned(newdoc, doc), "dist-tags") == Get(Copied(newdoc, doc), "dist-tags");
  }

  /** The revision check guarding the maintainers compares the body's
      revision with the stored one after the copy, which has already taken
      a string revision from the body: a body that sends its maintainers
      with any string `_rev`, or none on an unpublished package that has a
      string revision, always passes it. */
  lemma WeakRevisionGate(newdoc: Obj, doc: Obj)
    requires WellFormed(newdoc)
    requires IsString(Get(Sent(newdoc, doc), "_rev"))
    ensures OwnersGate(newdoc, doc) <==> IsTruthy(Get(newdoc, "maintainers"))
  {
    var nd := Sent(newdoc, doc);
    assert "_rev" in nd.keys;
  }

  /** Without a string revision in the body the gate is a real comparison
      with the stored revision. */
  lemma RevisionGate(newdoc: Obj, doc: Obj)
    requires !IsString(Get(Sent(newdoc, doc), "_rev"))
    ensures OwnersGate(newdoc, doc) <==>
              IsTruthy(Get(newdoc, "maintainers")) && StrictEq(Get(Sent(newdoc, doc), "_rev"), Get(doc, "_rev"))
  {
  }

  /** `mergeVersions` compares the body's revision with the prepared
      document, which has already taken a string revision from the body:
      with a string `_rev` in the body the revisions always match, so every
      stored version the body leaves out is removed. */
  lemma WeakPruneGate(newdoc: Obj, doc: Obj)
    requires WellFormed(newdoc)
    requires IsString(Get(Sent(newdoc, doc), "_rev"))
    ensures RevMatch(Sent(newdoc, doc), Prepared(newdoc, doc))
  {
    PreparedCopies(newdoc, doc, "_rev");
  }

  /** Without a string revision in the body, the pruning gate is a real
      comparison with the stored revision. */
  lemma PruneGate(newdoc: Obj, doc: Obj)
    requires WellFormed(newdoc)
    requires !IsString(Get(Sent(newdoc, doc), "_rev"))
    ensures RevMatch(Sent(newdoc, doc), Prepared(newdoc, doc)) <==>
              StrictEq(Get(Sent(newdoc, doc), "_rev"), Get(doc, "_rev"))
  {
    PreparedCopies(newdoc, doc, "_rev");
  }

  /** `doc.users` after `mergeUsers`, from the sent and the stored value:
      with truthy `users` in the body, the requester's entry is the body's
      when truthy and deleted otherwise, and no other entry changes; a
      stored truthy primitive swallows the write. */
  function UsersAfter(user: string, sent: Option<Json>, stored: Option<Json>): (r: Option<Json>)
    ensures !IsTruthy(sent) ==> r == stored
    ensures IsTruthy(sent) && IsTruthy(stored) && !stored.value.JObj? ==> r == stored
    ensures IsTruthy(sent) && !(IsTruthy(stored) && !stored.value.JObj?) ==>
              && r.Some? && r.value.JObj?
              && forall u {:trigger Get(r.value.obj, u)} :: Get(r.value.obj, u) ==
                   if u != user then Get(EntriesOf(stored), u)
                   else if IsTruthy(Get(EntriesOf(sent), user)) then Get(EntriesOf(sent), user)
                   else None
  {
    if !IsTruthy(sent) then stored
    else
      var d := if IsTruthy(stored) then stored.value else JObj(Empty);
      if !d.JObj? then stored
      else
        var own := Get(EntriesOf(sent), user);
        Some(JObj(if IsTruthy(own) then Set(d.obj, user, own.value) else Remove(d.obj, user)))
  }

  /** `mergeUsers(newdoc, doc)`: only `users` can change, and it becomes
      `UsersAfter`. */
  function MergeUsers(user: string, newdoc: Obj, doc: Obj): (r: Obj)
    ensures Get(r, "users") == UsersAfter(user, Get(newdoc, "users"), Get(doc, "users"))
    ensures forall k {:trigger Get(r, k)} :: k != "users" ==> Get(r, k) == Get(doc, k)
  {
    if IsTruthy(Get(newdoc, "users")) then Set(doc, "users", UsersAfter(user, Get(newdoc, "users"), Get(doc, "users")).value)
    else doc
  }

  /** The sent attachment `k` carries inline `data`. */
  predicate Inline(sent: Obj, keys: seq<string>, k: string) {
    k in keys && IsTruthy(Prop(Get(sent, k), "data"))
  }

  /** The loop of `mergeAttachments` over the keys `keys`: exactly the
      attachments with inline data are copied. */
  function CopyInline(sent: Obj, keys: seq<string>, into: Obj): (r: Obj)
    ensures forall k {:trigger Get(r, k)} ::
              Get(r, k) == if Inline(sent, keys, k) then Get(sent, k) else Get(into, k)
    decreases |keys|
  {
    if |keys| == 0 then into
    else
      var a := Get(sent, keys[0]);
      var d := if IsTruthy(Prop(a, "data")) then Set(into, keys[0], a.value) else into;
      assert forall k :: k in keys <==> k == keys[0] || k in keys[1..];
      CopyInline(sent, keys[1..], d)
  }

  /** `doc._attachments` after `mergeAttachments`, from the sent and the
      stored value: with truthy `_attachments` in the body, every sent
      attachment with inline data replaces the stored one and every other
      stored attachment stays; a stored truthy primitive swallows the
      writes. */
  function AttachmentsAfter(sent: Option<Json>, stored: Option<Json>): (r: Option<Json>)
    ensures !IsTruthy(sent) ==> r == stored
    ensures IsTruthy(sent) && IsTruthy(stored) && !stored.value.JObj? ==> r == stored
    ensures IsTruthy(sent) && !(IsTruthy(stored) && !stored.value.JObj?) ==>
              && r.Some? && r.value.JObj?
              && forall k {:trigger Get(r.value.obj, k)} :: Get(r.value.obj, k) ==
                   if Inline(EntriesOf(sent), EntriesOf(sent).keys, k) then Get(EntriesOf(sent), k)
                   else Get(EntriesOf(stored), k)
  {
    if !IsTruthy(sent) then stored
    else
      var d := if IsTruthy(stored) then stored.value else JObj(Empty);
      if !d.JObj? then stored
      else Some(JObj(CopyInline(EntriesOf(sent), EntriesOf(sent).keys, d.obj)))
  }

  /** `mergeAttachments(newdoc, doc)`: only `_attachments` can change, and
      it becomes `AttachmentsAfter`. */
  function MergeAttachments(newdoc: Obj, doc: Obj): (r: Obj)
    ensures Get(r, "_attachments") == AttachmentsAfter(Get(newdoc, "_attachments"), Get(doc, "_attachments"))
    ensures forall k {:trigger Get(r, k)} :: k != "_attachments" ==> Get(r, k) == Get(doc, k)
  {
    if IsTruthy(Get(newdoc, "_attachments")) then
      Set(doc, "_attachments", AttachmentsAfter(Get(newdoc, "_attachments"), Get(doc, "_attachments")).value)
    else doc
  }

  /** The saved document `f` of a package update, read property by
      property: every root property that neither a merge nor `ok` writes
      (identity, revision, name, maintainers, the copied strings) is the
      prepared document's; the requester's star and the inline attachments
      are merged in; without versions in the body the tags are kept and the
      stored versions only lose `ok`'s scratch properties; with them the
      versions are merged as `mergeVersions` promises. */
  ghost predicate Updated(lib: Lib, ctx: Context, nd: Obj, p: Obj, f: Obj) {
    && (forall k {:trigger Get(f, k)} :: !MergeWrites(k) && k != "users" && k != "_attachments" ==>
          Get(f, k) == Get(p, k))
    && Get(f, "users") == UsersAfter(ctx.user, Get(nd, "users"), Get(p, "users"))
    && Get(f, "_attachments") == AttachmentsAfter(Get(nd, "_attachments"), Get(p, "_attachments"))
    && (!IsTruthy(Get(nd, "versions")) ==> RecordsStripped(p, f, RecordScratch))
    && (IsTruthy(Get(nd, "versions")) && ObjectSlot(p, "versions") ==> VersionsMerged(lib, ctx, nd, p, f))
  }

  /** The document `updateDoc` hands to `ok`: the prepared document with the
      versions merged as `m`, then the requester's star and the inline
      attachments. */
  function Merged(user: string, nd: Obj, m: Obj): Obj {
    MergeAttachments(nd, MergeUsers(user, nd, m))
  }

  /** How the reply `r` follows from the merge of versions `m`: a stopped
      merge is the reply, and a merge that goes on is finished by `ok`
      with the star and the attachments merged in. */
  ghost predicate Replied(ctx: Context, nd: Obj, m: Step, r: Reply) {
    && (m.Stop? ==> r == m.reply)
    && (m.Continue? ==> OkReply(Merged(ctx.user, nd, m.doc), PackageUpdated, ctx.now, r))
  }

  /** What `updateDoc(newdoc, doc)` promises. The reply comes from a merge of
      the body's versions into the prepared document that `mergeVersions`
      allows: its error when the merge stops, and otherwise `ok`'s reply on
      the merged document. Whatever stops it, a saved reply needs
      maintainers on the prepared document and a refusal for missing
      maintainers needs them absent. A saved reply that is not an error is
      "updated package" with the document read property by property as
      `Updated` says. */
  ghost predicate UpdateOutcome(lib: Lib, ctx: Context, newdoc: Obj, doc: Obj, r: Reply) {
    var nd := Sent(newdoc, doc);
    var p := Prepared(newdoc, doc);
    && OwnersAgree(p, r)
    && (exists m :: MergeOutcome(lib, ctx, nd, p, m) && Replied(ctx, nd, m, r))
    && (r.Saved? && !IsError(r) ==> r.note == PackageUpdated && Updated(lib, ctx, nd, p, r.doc))
  }

  /** `updateDoc(newdoc, doc)`. */
  method UpdateDoc(lib: Lib, ctx: Context, newdoc: Obj, doc: Obj) returns (r: Reply)
    requires WellFormed(Versions(newdoc))
    ensures UpdateOutcome(lib, ctx, newdoc, doc, r)
  {
    var nd := Sent(newdoc, doc);
    var p := Prepared(newdoc, doc);
    var m := MergeVersions(lib, ctx, nd, p);
    if m.Stop? {
      UpdateStopped(lib, ctx, nd, p, m);
      return m.reply;
    }
    r := Ok(Merged(ctx.user, nd, m.doc), PackageUpdated, ctx.now);
    UpdateDone(lib, ctx, nd, p, m.doc, r);
  }

  /** A merge that stops answers the update with its error. */
  lemma UpdateStopped(lib: Lib, ctx: Context, nd: Obj, p: Obj, m: Step)
    requires MergeOutcome(lib, ctx, nd, p, m) && m.Stop?
    ensures OwnersAgree(p, m.reply)
    ensures exists m' :: MergeOutcome(lib, ctx, nd, p, m') && Replied(ctx, nd, m', m.reply)
    ensures !(m.reply.Saved? && !IsError(m.reply))
  {
    assert Replied(ctx, nd, m, m.reply);
  }

  /** Merging the star and the attachments keeps the maintainers a merge of
      versions kept. */
  lemma MergedOwners(user: string, nd: Obj, p: Obj, m: Obj)
    requires KeepsRoot(p, m)
    ensures Get(Merged(user, nd, m), "maintainers") == Get(p, "maintainers")
  {
    UntouchedApart();
    assert !MergeWrites("maintainers");
  }

  /** `ok` on the merged document gives the promised reply. */
  lemma UpdateDone(lib: Lib, ctx: Context, nd: Obj, p: Obj, m: Obj, r: Reply)
    requires MergeOutcome(lib, ctx, nd, p, Continue(m))
    requires OkReply(Merged(ctx.user, nd, m), PackageUpdated, ctx.now, r)
    ensures OwnersAgree(p, r)
    ensures exists m' :: MergeOutcome(lib, ctx, nd, p, m') && Replied(ctx, nd, m', r)
    ensures r.Saved? ==> r.note == PackageUpdated && Updated(lib, ctx, nd, p, r.doc)
  {
    assert Replied(ctx, nd, Continue(m), r);
    MergedOwners(ctx.user, nd, p, m);
    if r.Saved? {
      UpdateFinished(lib, ctx, nd, p, m, r.doc);
    }
  }

  /** The finalised merge is the promised update. */
  lemma UpdateFinished(lib: Lib, ctx: Context, nd: Obj, p: Obj, m: Obj, f: Obj)
    requires MergeOutcome(lib, ctx, nd, p, Continue(m))
    requires Finished(Merged(ctx.user, nd, m), f, ctx.now)
    ensures Updated(lib, ctx, nd, p, f)
  {
    var d := Merged(ctx.user, nd, m);
    UpdatedRoot(ctx.user, nd, p, m, f);
    assert RecordsStripped(d, f, RecordScratch);
    UpdatedVersions(lib, ctx, nd, p, m, f);
  }

  /** What neither a merge nor `ok` writes is the prepared document's, and
      the star and the attachments are merged in. */
  lemma UpdatedRoot(user: string, nd: Obj, p: Obj, m: Obj, f: Obj)
    requires KeepsRoot(p, m)
    requires forall k {:trigger Get(f, k)} :: k !in RootRewrites && k !in CopyFields ==>
               Get(f, k) == Get(Merged(user, nd, m), k)
    ensures forall k {:trigger Get(f, k)} :: !MergeWrites(k) && k != "users" && k != "_attachments" ==>
              Get(f, k) == Get(p, k)
    ensures Get(f, "users") == UsersAfter(user, Get(nd, "users"), Get(p, "users"))
    ensures Get(f, "_attachments") == AttachmentsAfter(Get(nd, "_attachments"), Get(p, "_attachments"))
  {
    UntouchedApart();
    assert !MergeWrites("users") && !MergeWrites("_attachments");
  }

  /** The versions of the saved document: kept apart from `ok`'s scratch
      deletions without versions in the body, merged with them. */
  lemma UpdatedVersions(lib: Lib, ctx: Context, nd: Obj, p: Obj, m: Obj, f: Obj)
    requires MergeOutcome(lib, ctx, nd, p, Continue(m))
    requires RecordsStripped(Merged(ctx.user, nd, m), f, RecordScratch)
    ensures !IsTruthy(Get(nd, "versions")) ==> RecordsStripped(p, f, RecordScratch)
    ensures IsTruthy(Get(nd, "versions")) && ObjectSlot(p, "versions") ==> VersionsMerged(lib, ctx, nd, p, f)
  {
    var d := Merged(ctx.user, nd, m);
    assert Get(d, "versions") == Get(m, "versions") && Get(d, "dist-tags") == Get(m, "dist-tags");
    if IsTruthy(Get(nd, "versions")) && ObjectSlot(p, "versions") {
      VersionsMergedStrip(lib, ctx, nd, p, d, f);
    }
  }

  /** The prepared document has the stored versions: `versions` is not a
      string the body could copy over them. */
  lemma PreparedVersions(newdoc: Obj, doc: Obj)
    requires WellFormed(newdoc)
    requires Get(newdoc, "versions") == Get(doc, "versions")
    ensures Get(Sent(newdoc, doc), "versions") == Get(Prepared(newdoc, doc), "versions") == Get(doc, "versions")
  {
    PreparedCopies(newdoc, doc, "versions");
  }

  /** Sending the stored versions back unchanged, when every stored record
      is truthy, updates the package exactly when the prepared document has
      maintainers: no version halts the merge. */
  lemma IdenticalRepublish(lib: Lib, ctx: Context, newdoc: Obj, doc: Obj, r: Reply)
    requires WellFormed(newdoc)
    requires UpdateOutcome(lib, ctx, newdoc, doc, r)
    requires Get(newdoc, "versions") == Get(doc, "versions")
    requires WellFormed(Versions(doc))
    requires forall k :: k in Versions(doc).vals ==> Truthy(Versions(doc).vals[k])
    ensures r.Saved? <==> IsTruthy(Get(Prepared(newdoc, doc), "maintainers"))
    ensures r.Saved? ==> r.note == PackageUpdated
  {
    var nd := Sent(newdoc, doc);
    var p := Prepared(newdoc, doc);
    PreparedVersions(newdoc, doc);
    assert Versions(p) == Versions(doc);
    var m :| MergeOutcome(lib, ctx, nd, p, m) && Replied(ctx, nd, m, r);
    RepublishReply(lib, ctx, nd, p, m, r);
  }

  /** The reply to a merge of the stored versions sent back unchanged. */
  lemma RepublishReply(lib: Lib, ctx: Context, nd: Obj, p: Obj, m: Step, r: Reply)
    requires MergeOutcome(lib, ctx, nd, p, m) && Replied(ctx, nd, m, r)
    requires Get(nd, "versions") == Get(p, "versions")
    requires WellFormed(Versions(p))
    requires forall k :: k in Versions(p).vals ==> Truthy(Versions(p).vals[k])
    ensures r.Saved? <==> IsTruthy(Get(p, "maintainers"))
    ensures r.Saved? ==> r.note == PackageUpdated
  {
    ResendAll(lib, ctx, nd, p, m);
    MergeWentOwners(lib, ctx, nd, p, m.doc);
    MergedOwners(ctx.user, nd, p, m.doc);
  }

  /** An update saved without error accepted every sent key in turn, and
      published every new version: `addNewVersion` accepted it, and the
      prepared document has maintainers and an ordinary `_id`. */
  lemma UpdateAccepted(lib: Lib, ctx: Context, newdoc: Obj, doc: Obj, r: Reply)
    requires UpdateOutcome(lib, ctx, newdoc, doc, r) && r.Saved? && !IsError(r)
    requires WellFormed(Versions(Sent(newdoc, doc)))
    ensures IsTruthy(Get(Sent(newdoc, doc), "versions")) ==>
              Passed(lib, Prepared(newdoc, doc), Versions(Sent(newdoc, doc)), Versions(Sent(newdoc, doc)).keys)
    ensures forall k :: k in Versions(Sent(newdoc, doc)).vals && !IsTruthy(Get(Versions(Prepared(newdoc, doc)), k)) ==>
              Publishable(lib, Prepared(newdoc, doc), k, Versions(Sent(newdoc, doc)).vals[k])
  {
    var nd := Sent(newdoc, doc);
    var p := Prepared(newdoc, doc);
    var m :| MergeOutcome(lib, ctx, nd, p, m) && Replied(ctx, nd, m, r);
    assert m.Continue?;
    MergeAccepted(lib, ctx, nd, p, m);
  }

  /** A merge that goes on keeps the maintainers. */
  lemma MergeWentOwners(lib: Lib, ctx: Context, nd: Obj, p: Obj, m: Obj)
    requires MergeWent(lib, ctx, nd, p, m)
    ensures KeepsRoot(p, m)
  {
  }

  /** An update whose body publishes no new version keeps the stored tags
      and creation time: `ok` rewrites neither, and only a publication
      writes them during the merge. */
  lemma UpdateKeepsTags(lib: Lib, ctx: Context, newdoc: Obj, doc: Obj, r: Reply)
    requires UpdateOutcome(lib, ctx, newdoc, doc, r)
    requires r.Saved? && !IsError(r)
    requires !IsTruthy(Get(Sent(newdoc, doc), "versions")) || NoNewKeys(Sent(newdoc, doc), Prepared(newdoc, doc))
    ensures Get(r.doc, "dist-tags") == Get(Prepared(newdoc, doc), "dist-tags")
    ensures ObjectSlot(Prepared(newdoc, doc), "time") ==>
              Prop(Get(r.doc, "time"), "created") == Some(OrElse(Get(Time(Prepared(newdoc, doc)), "created"), JStr(ctx.now)))
  {
    var nd := Sent(newdoc, doc);
    var p := Prepared(newdoc, doc);
    var m :| MergeOutcome(lib, ctx, nd, p, m) && Replied(ctx, nd, m, r);
    assert m.Continue?;
    assert SameExcept(p, m.doc, {"versions"});
    KeptTags(ctx, nd, p, m.doc, r);
  }

  /** `ok`'s reply to a merge that changed no root property but
      `versions`. */
  lemma KeptTags(ctx: Context, nd: Obj, p: Obj, m: Obj, r: Reply)
    requires SameExcept(p, m, {"versions"})
    requires OkReply(Merged(ctx.user, nd, m), PackageUpdated, ctx.now, r) && r.Saved?
    ensures Get(r.doc, "dist-tags") == Get(p, "dist-tags")
    ensures ObjectSlot(p, "time") ==>
              Prop(Get(r.doc, "time"), "created") == Some(OrElse(Get(Time(p), "created"), JStr(ctx.now)))
  {
    MergedApart(ctx.user, nd, m, "dist-tags");
    MergedApart(ctx.user, nd, m, "time");
    assert Get(m, "dist-tags") == Get(p, "dist-tags") && Get(m, "time") == Get(p, "time");
    UntouchedApart();
  }

  /** Merging the star and the attachments writes nothing else. */
  lemma MergedApart(user: string, nd: Obj, m: Obj, k: string)
    requires k != "users" && k != "_attachments"
    ensures Get(Merged(user, nd, m), k) == Get(m, k)
  {
  }
}

=== FILE: updates.dfy ===
/**
 The package update handler's entry point: the first write of a package
 creates it, a write with a `version` query parameter goes the legacy way
 (tag or single version), and any other write is a whole-document update.
 */
module Updates {
  import opened Json
  import opened Protocol
  import opened Create
  import opened Legacy
  import opened Update

  /** The body as `updateDoc` reads it when it is not an object. */
  function AsDocument(body: Json): Obj {
    if body.JObj? then body.obj else Empty
  }

  /** The update handler on the stored document `doc` (`None` when nothing
      is stored) and the request body `body`. */
  method Package(lib: Lib, ctx: Context, doc: Option<Obj>, body: Json) returns (r: Reply)
    requires doc.Some? && !Given(ctx.query.version) ==> WellFormed(Versions(AsDocument(body)))
    ensures doc.None? ==> CreateOutcome(lib, body, ctx.now, r)
    ensures doc.Some? && Given(ctx.query.version) ==>
              LegacyOutcome(lib, ctx, doc.value, ctx.query.version.value, body, r)
    ensures doc.Some? && !Given(ctx.query.version) ==> UpdateOutcome(lib, ctx, AsDocument(body), doc.value, r)
  {
    if doc.None? {
      r := NewDoc(lib, body, ctx.now);
    } else if Given(ctx.query.version) {
      r := LegacyUpdate(lib, ctx, doc.value, ctx.query.version.value, body);
    } else {
      r := UpdateDoc(lib, ctx, AsDocument(body), doc.value);
    }
  }
}
